=== FILE: README.md ===
# Ledger engine of `t`, a task and note CLI

`t` keeps a ledger: an ordered list of items. Each item is a task or a note, has a text, a checked flag, a board name and a creation date. Items are grouped by board, and `"Tasks"` is the default board. An item has no identifier of its own. The user addresses it by its current position, counted from 1 in the report. The same engine exists twice in the repository:

- the free functions of `src/tasks.rs`, which read and rewrite the store on every command;
- the `Config` methods of `src/config.rs`, which load the ledger once, regroup it by board, and then work on it in memory.

The Dafny model covers what both lineages compute:

- **Identifier resolution.** `get_id` and `get_numbers` turn argument tokens into zero-based positions.
- **Toggle.** The checked flag of each addressed item is flipped, or the whole command aborts.
- **Delete.** The compaction loop shifts every later index down by the removals already made.
- **Clear.** The ledger is partitioned into the archived (checked) items and the kept (unchecked) ones.
- **Add.** A task or a note is built, with the `!board` marker rule.
- **Board aggregation.** The distinct boards in first-seen order, with per-board totals and completed counts, as the reports show them.
- **Sort-on-load.** The `Config` lineage regroups the ledger by board when it loads it.

Modules, in dependency order:

| module | file | contents |
|---|---|---|
| `Maybe`, `Text` | text.dfy | `Option`, `usize` parsing and printing, join and split on spaces, `'!'` removal |
| `Entity` | entity.dfy | `Task`, item equality, building a task or note from tokens, `Outcome` (what a command leaves in the store) |
| `Partition` | partition.dfy | checked and unchecked items in ledger order |
| `Positions` | positions.dfy | flipping by position; the delete loop and its reference meaning `Survivors` |
| `Boards` | boards.dfy | board names, first-seen distinct list, per-board runs, regrouping in a board order, counts |
| `Sorting` | sort.dfy | `sort_tasks` |
| `Resolve` | resolve.dfy | `get_id`, `get_numbers`, the `digits-digits` pattern |
| `Tasks` | tasks.dfy | the `src/tasks.rs` commands and report |
| `Config` | config.dfy | the `Tasks` wrapper and the `Config` commands and report |

A command's effect on the store is an `Outcome`, with three cases:

- `Aborted`: validation failed and nothing was written, so the store keeps the ledger it had.
- `Updated(l)`: the store now holds `l`.
- `Emptied`: the store file was truncated.

`Stored(o, before)` gives the ledger the store holds afterwards. Calls that would panic in the Rust code become preconditions:
- a `0 - 1` on `usize`;
- `tasks[len]`;
- a missing `"Tasks"` entry in the report's map;
- `args[COMMAND]` on an empty command line, in `add_task`, `add_note` and `delete_task`;
- `args[1]` on a one-token command line;
- `numbers.first().unwrap()` on an empty range list in `check_task`;
- the `args[ARGUMENT..]` slice on an empty command line in `add_note`;
- the `parse::<usize>().unwrap()` of a range capture in `get_numbers` when a group overflows a usize (`GetNumbersDefined`).

## Model

| member | source | states |
|---|---|---|
| Entity.SameItemsIffItems | src/config.rs:55-59 | task equality looks only at the item text (`src/tasks.rs` lines 32-36), whatever the flags, board and date, so two ledgers are equal exactly when their item texts agree position by position |
| Config.Equal | src/config.rs:55-59 | `Tasks` equality holds exactly when the item texts of the two wrapped ledgers are the same sequence |
| Text.ParseUsize | src/tasks.rs:109-111 | a token is accepted exactly when, after one optional leading `+`, it is a non-empty run of ASCII digits whose value fits in a usize, and then that value is the result; an accepted token starts with a digit or `+` and holds no `-` or space |
| Text.ParsedIsPaddedDecimal | src/tasks.rs:109-111 | an accepted token is the plain decimal form of its value behind an optional `+` and leading zeros |
| Text.PaddedDecimalParses | src/tasks.rs:109-111 | conversely, the decimal form of any n up to the usize maximum, with or without a `+` and any leading zeros, is accepted as n |
| Text.ParseDecimal | src/tasks.rs:109-111 | parsing the decimal form of any usize value gives that value back |
| Text.SplitJoin | src/tasks.rs:167-169 | joining space-free tokens with single spaces loses nothing: splitting the result gives the tokens back |
| Text.RemoveBangs | src/tasks.rs:166 | the result has no `'!'`, and every other character occurs as often as in the input |
| Text.RemoveBangsOfConcat | src/tasks.rs:166 | removing the `'!'` characters works piece by piece: the result for a + b is the result for a followed by the result for b |
| Text.RemoveBangsOfChar | src/tasks.rs:166 | a single `'!'` disappears and any other single character is kept, so with the lemma above the kept characters stay in their order |
| Text.MarkerNamesBoard | src/tasks.rs:165-166 | the marker `!b` names exactly board `b`, and stripping again changes nothing |
| Entity.NewTask | src/tasks.rs:161-178 | a new task is unchecked, not a note, carries the given date and has no `'!'` in its board name |
| Entity.NewNote | src/tasks.rs:388-398 | a new note is a note, unchecked, on the default board, with the given date |
| Entity.MarkedTaskRoundTrip | src/tasks.rs:165-167 | `!b w1 … wn` gives board `b` and a text that splits back into `w1 … wn` |
| Entity.UnmarkedTaskRoundTrip | src/tasks.rs:168-170 | without a marker the task goes to the default board and its text splits back into every token |
| Entity.NoteRoundTrip | src/tasks.rs:389 | a note's text splits back into the words it was given |
| Resolve.Span | src/tasks.rs:103-105 | the range loop yields B - A entries, the i-th being A + i, ascending; none when A >= B |
| Resolve.ListIds | src/tasks.rs:107-119 | list mode rejects exactly when some token is not a number, naming the first such token; otherwise one position per token, in order, each being its token minus one |
| Resolve.GetId | src/tasks.rs:94-120 | in `A - B` form it always succeeds: A-1 through B-1 when both ends parse and A <= B, nothing otherwise; any other form is list mode |
| Resolve.GetIdOfDecimals | src/tasks.rs:107-118 | typed positions p1 … pn (all >= 1) resolve to p1-1 … pn-1, in order |
| Resolve.GetIdOfRange | src/tasks.rs:96-106 | `A - B` with A >= 1 resolves to the positions A-1 through B-1 |
| Resolve.MatchAt | src/config.rs:415-422 | a match at p consists of two non-empty digit runs around a `-`, and they are the substring of the token found at p |
| Resolve.RangeAtRuns | src/config.rs:415-422 | any occurrence of digits, `-`, digits at p uses the whole digit run at p as its first group and part of the run after the `-` as its last |
| Resolve.MatchAtLongest | src/config.rs:415-422 | a match at p is an occurrence of the pattern there whose last group is not followed by another digit (the greedy `\d+`) |
| Resolve.MatchAtComplete | src/config.rs:415-422 | no match at p exactly when no split of the text at p into digits, `-`, digits exists |
| Resolve.FindRangeComplete | src/config.rs:415-422 | the search finds nothing exactly when the pattern occurs at no position of the token |
| Resolve.Scan | src/config.rs:424-430 | the range search finds nothing exactly when no position matches; otherwise it returns the leftmost match |
| Resolve.FindRangeOfDecimals | src/config.rs:415-431 | a typed `A-B` is found whole, with A and B as its two captures |
| Resolve.NoDashNoRange | src/config.rs:415-422 | a token without `-` holds no range |
| Resolve.ListNumbersMembers | src/config.rs:447-455 | list mode yields position x exactly when some token is the number x + 1, so `0` and non-numbers are skipped |
| Resolve.ListNumbersOfConcat | src/config.rs:447-455 | tokens are handled one at a time: the positions for a + b are those for a followed by those for b |
| Resolve.ListNumbersOfOne | src/config.rs:447-455 | a single token gives its number minus one when that number is at least 1, and nothing when it is 0 or not a number; with the lemma above, one entry per such token in input order |
| Resolve.ListNumbersOfDecimals | src/config.rs:447-455 | typed positions p1 … pn (all >= 1) come out as p1-1 … pn-1, in input order |
| Resolve.GetNumbers | src/config.rs:412-456 | a range `x-y` in the inspected token gives x-1 … y-1 ascending, or nothing when x > y; without a range the result is list mode |
| Resolve.GetNumbersOfRange | src/config.rs:426-444 | `verb A-B` with 1 <= A <= B resolves to the positions A-1 through B-1 |
| Resolve.GetNumbersOfDecimals | src/config.rs:426-455 | `verb p1 … pn` resolves to p1-1 … pn-1 in order, the verb being skipped |
| Positions.FlipTwiceRestores | src/tasks.rs:136 | flipping by the same multiset of positions twice gives the original ledger back |
| Tasks.Toggle | src/tasks.rs:140-147 | the loop aborts exactly when some id is past the end; otherwise each item is flipped once per occurrence of its one-based id and nothing else changes |
| Tasks.CheckTask | src/tasks.rs:122-153 | never truncates; aborts with nothing written exactly when a visited id is past the end (in range form, exactly when the last id is); otherwise flips each addressed item once per occurrence |
| Tasks.CheckTwiceRestores | src/tasks.rs:131-150 | running the same check twice restores the original ledger |
| Config.Toggle | src/config.rs:192-200 | the loop aborts exactly when some id is past the end or addresses a note; otherwise each item is flipped once per occurrence of its zero-based id, and every id lies inside the ledger on a task |
| Config.ShapeDecides | src/config.rs:193 | whether an id is refused depends only on the length and the note flags, which flipping never changes |
| Config.NotesNeverToggled | src/config.rs:193-199 | a check that goes through leaves every note exactly as it was |
| Config.CheckTask | src/config.rs:184-203 | aborts exactly when no id resolves or some id is refused; otherwise flips the addressed tasks once per occurrence; never truncates |
| Config.CheckTwiceRestores | src/config.rs:192-200 | running the same check twice restores the original ledger |
| Positions.Compact | src/tasks.rs:201-209 | the delete loop aborts exactly when some id is at or past the original size and not 0; otherwise the ledger shrinks by the number of ids below that size |
| Positions.DeleteLoop | src/tasks.rs:197-209 | the in-place loop with a shrinking ledger computes the loop's function; on strictly ascending ids inside the ledger it removes exactly those positions |
| Positions.SurvivorsLength | src/tasks.rs:201-204 | removing a set of positions inside the ledger shortens it by exactly their number |
| Positions.CompactAscending | src/tasks.rs:201-205 | after the removals made so far, the next ascending id, shifted down by their number, lands on the requested item |
| Positions.AscendingDeletes | src/tasks.rs:197-209 | on strictly ascending ids inside the ledger the loop never underflows and leaves exactly the other items, in ledger order |
| Positions.DescendingIdsRemoveWrongItems | src/tasks.rs:201-204 | zero-based ids 2 then 1 on `[a, b, c]` pass the loop's checks but leave `[b]`, where removing those positions leaves `[a]` |
| Positions.RepeatedIdRemovesTwice | src/tasks.rs:201-204 | zero-based id 1 twice on `[a, b, c]` removes b and then a, leaving `[c]` where `[a, c]` was meant |
| Positions.DeleteNormalized | src/tasks.rs:197-209 | deletion with the same validation, removing exactly the named positions whatever their order and repeats |
| Tasks.DeleteTask | src/tasks.rs:184-219 | a non-number aborts; an id at or past the end, other than 0, aborts; otherwise the ledger shrinks by the ids below the length and is what the shift-by-removals loop leaves, whatever the id order; ascending ids remove exactly those positions; an empty result truncates instead of writing |
| Config.RemoveIsSurvivors | src/config.rs:33-35 | `Tasks::remove` leaves exactly the other items, in order |
| Config.PushThenRemove | src/config.rs:33-38 | removing the item just pushed gives the wrapper back |
| Config.Push | src/config.rs:36-38 | the pushed item is last and every earlier item stays where it was |
| Config.Remove | src/config.rs:33-35 | items before the index stay put, later ones move down by one |
| Config.DeleteTask | src/config.rs:144-172 | no resolved id aborts; otherwise the same loop and abort rule as the free-function lineage, with the loop's result stored whatever the id order, and a truncated store when nothing is left |
| Config.RangeDeletesSpan | src/config.rs:158-166 | `d A-B` with 1 <= A <= B <= length passes the loop's checks and deletes exactly the items A through B |
| Partition.PartitionMembers | src/tasks.rs:234-242 | the archive part holds exactly the checked items and the kept part exactly the unchecked ones |
| Partition.PartitionCovers | src/tasks.rs:234-242 | the two parts' lengths sum to the ledger's, and together they hold every item as often as the ledger does |
| Partition.PartitionOfConcat | src/tasks.rs:234-242 | both parts keep ledger order: partitioning a concatenation partitions each piece |
| Partition.ClearAgainIsNoop | src/tasks.rs:234-242 | clearing the kept part again archives nothing and keeps it as it is |
| Tasks.ClearTasks | src/tasks.rs:221-251 | an empty ledger is left untouched; otherwise the archive receives the checked items in order and the store keeps the unchecked ones in order, truncated when none remain |
| Config.ClearTasks | src/config.rs:205-214 | the selection is the checked items in ledger order, and contains exactly the checked items |
| Tasks.AddTask | src/tasks.rs:155-182 | appends one item and keeps the rest; `!b` in the first operand gives board b minus every `'!'` with the other operands as text, else the default board with every operand |
| Tasks.AddTaskRoundTrip | src/tasks.rs:155-170 | `a !b w1 … wn` appends a task on board b whose text splits back into `w1 … wn` |
| Tasks.AddNote | src/tasks.rs:388-402 | appends one unchecked note on the default board holding every token after the command, and keeps the rest |
| Tasks.AddNoteRoundTrip | src/tasks.rs:388-389 | the appended note's text splits back into the words after the command |
| Config.AddTask | src/config.rs:119-142 | the task built from `args[1..]` follows the same `'!'` rule and is unchecked and not a note |
| Config.LineagesAddAlike | src/config.rs:125-130 | both lineages build the same task from `a` followed by the same operands |
| Config.AddNote | src/config.rs:174-182 | appends one unchecked note on the default board, dated with the given time, holding every token after the command |
| Boards.DistinctFirstSeen | src/tasks.rs:270-278 | the board list holds every board name exactly once, in first-seen order |
| Boards.CustomsSpec | src/tasks.rs:300 | the custom list is the board list without `"Tasks"`, still duplicate-free and in first-seen order |
| Boards.OnBoardMembers | src/tasks.rs:285-287 | one board's items are exactly the ledger's items on that board |
| Boards.CountBoards | src/tasks.rs:281-297 | for each listed board: its name, its checked items (notes included) and its items (notes included) |
| Boards.BoardCountBounds | src/tasks.rs:283-291 | a board's completed count never exceeds its total, which is positive for a board in use |
| Boards.TotalsCoverLedger | src/tasks.rs:281-297 | over the distinct board list the per-board totals add up to the ledger length |
| Boards.CountDone | src/tasks.rs:270-275 | the footer's completed count is the number of checked items that are not notes |
| Boards.DoneTasksWithoutNotes | src/tasks.rs:270-275 | without notes the completed count is the number of checked items, and completed plus notes never exceeds the length |
| Boards.DoneTasksAreCheckedTasks | src/tasks.rs:270-275 | over any ledger, the completed count is the number of checked items less the checked notes |
| Boards.CountNotes | src/tasks.rs:314-316 | the notes counted while printing are the notes of the listing |
| Boards.NotesOfPermutation | src/tasks.rs:329-336 | a listing that reorders the ledger holds as many notes as the ledger |
| Tasks.ListingPermutation | src/tasks.rs:308-346 | the report lists every item exactly once, and each board's items in ledger order |
| Tasks.Report | src/tasks.rs:253-356 | nothing on an empty ledger; otherwise per-board counts over the distinct boards summing to the length, custom headers then `"Tasks"`, the listing, and a footer of done tasks, open items and notes that add up |
| Tasks.NumberingMismatch | src/tasks.rs:308-346 | with a default item stored before a custom one, the report shows the custom one as 1 while `check 1` flips the default one |
| Sorting.BoardOrderSpec | src/config.rs:377-385 | the sort order has no repeats, holds every board the ledger uses, and names no board other than `"Tasks"` that the ledger lacks |
| Sorting.SortPermutation | src/config.rs:387-404 | sorting keeps every item, as often as before |
| Sorting.SortStable | src/config.rs:387-404 | every board keeps exactly its items in their original relative order |
| Sorting.SortRankOrdered | src/config.rs:387-404 | the sorted ledger has the default board's items first, then one custom board after another in first-seen order |
| Sorting.SortFixesExactlyGrouped | src/config.rs:387-404 | sorting leaves a ledger unchanged exactly when it is already grouped |
| Sorting.SortKeepsCustoms | src/config.rs:377-385 | sorting keeps the custom boards and their first-seen order |
| Sorting.SortIdempotent | src/config.rs:374-404 | sorting twice gives the same ledger as sorting once |
| Sorting.SortTasks | src/config.rs:374-410 | the result is the regrouped ledger: a permutation of the loaded one, grouped by board, and the loaded ledger itself when that was already grouped; a rewrite happens exactly when the regrouped item texts differ from the loaded ones, so only when the order changed |
| Sorting.SameTextsHideReorder | src/config.rs:406-409 | a reordering of two items with equal texts compares equal, so it is not rewritten |
| Config.LoadedListingIsLedger | src/config.rs:282-326 | after sort-on-load the report numbers items in ledger order, so item n of the listing is position n - 1 |
| Config.Report | src/config.rs:228-331 | per-board counts over the distinct boards summing to the length, `"Tasks"` header first and then the custom boards, the listing in sort order, a completed count fixed at 0, and an open count equal to the item count taken at load time minus the notes now present (the items less the notes when the two counts agree) |

## Left out

- File I/O and TOML: `get_tasks`, `write_toml`, `append_toml`, `Config::new`, `check_files`, `check_empty` and `backup`. A command's result is its `Outcome`, and the archive is the `archived` sequence.
- Terminal rendering: `print::*`, crossterm, `dbg!` and every message. A report is modelled as a `Summary` holding its counts, headers and numbered listing.
- Clock: `Utc::now()` becomes a `date` parameter. Dates are opaque, and the age in days shown per item is not modelled.
- The regex engine: `(?P<first>\d+)-(?P<last>\d+)` is modelled as a leftmost search for a digit run, a `-` and a digit run. Only ASCII digits count, while the regex `\d` also accepts other Unicode digits.
- `usize` overflow: `y + 1` in `get_id` and `end + 1` in `check_task` would overflow at `usize::MAX`. Integers here are unbounded; parsed numbers are bounded by `UsizeMax`.
- `old_tasks` and `print_old`: read-only listings of the archive, with nothing computed.
- `src/main.rs`: a dispatcher that calls functions not present in the repository's source.
- `gen_id` and the `id` field: `src/task.rs`, which defines the `Task` used by `src/config.rs`, is not part of this model. Its equality is taken to compare texts only, as `src/tasks.rs` does.
- Config.AddTask: `add_task` in `src/config.rs` builds the task and drops it, because the append is commented out. The model returns the task and adds nothing.
- Config.ClearTasks: the drain and the archive append are commented out in `src/config.rs`, so the model only returns the selection.
- Config.DeleteTask, Config.CheckTask: the store writes are commented out in `src/config.rs`. `Updated` is the ledger left in memory. `Emptied` stands for `check_empty` truncating the file and exiting.
- Sorting.SortTasks: the rewrite is commented out in `src/config.rs`. `write` says whether it would happen.
- Tasks.Report, Config.Report: the total passed as the last argument of `print::task` and `print::note` only pads the display, so that argument is not modelled.
- Config.Report: requires the load-time item count to be at least the number of notes. `total_tasks` is set once in `Config::new` and `add_note` and `delete_task` do not update it, so a report after adding notes past that count would underflow the usize subtraction in the footer (a panic in a debug build, wrap-around in a release build); that case is not modelled.
- Where the code differs from what the tool evidently intends, the model follows the code:
  - An `A - B` range with A > B resolves to no positions rather than an error.
  - The per-board completed count includes checked notes.
  - The free-function `check_task` does not refuse notes.
  - `clear` with no checked item still rewrites the store and appends an empty archive.
  - In list form, position 0 underflows in the free-function lineage (a precondition here) and is skipped by `get_numbers`. A range starting at 0 underflows in both lineages (a precondition here).
  - Ids are used in the order typed, and repeats are kept.

## Findings

| source | as written | input that shows it | evidently intended | confidence | as-written member | corrected member |
|---|---|---|---|---|---|---|
| src/tasks.rs:201-204 (same loop at src/config.rs:158-161) | each id is shifted down by the number of removals already made, which lands on the named item only when the ids are strictly ascending | `d 3 2` on `[a, b, c]` leaves `[b]`; `d 2 2` leaves `[c]` | delete exactly the items the user named, whatever the order and repeats | high, not executed | Tasks.DeleteTask, Positions.DeleteLoop, Positions.DescendingIdsRemoveWrongItems, Positions.RepeatedIdRemovesTwice | Positions.DeleteNormalized |
| src/tasks.rs:308-346 against src/tasks.rs:131-147 | the report numbers the custom boards' items first, but `check n` addresses stored position n - 1 | a default-board item stored before a custom-board item: the report shows the custom item as 1, and `check 1` flips the default one | the number shown next to an item addresses that item, as after the `Config` lineage's sort-on-load | high, not executed | Tasks.NumberingMismatch | Config.LoadedListingIsLedger |

=== FILE: boards.dfy ===
/**
 * Board aggregation: the board names of a ledger, their distinct list in
 * first-seen order (itertools `unique`), the items of one board, the
 * concatenation of boards in a given order, and the per-board and global
 * counts the reports show.
 */
module Boards {
  import opened Entity
  import opened Partition

  /** The board name of every item, in ledger order. */
  function BoardNames(l: seq<Task>): (r: seq<string>)
    ensures |r| == |l|
  {
    if |l| == 0 then [] else [l[0].boardName] + BoardNames(l[1..])
  }

  lemma {:induction false} BoardNamesAt(l: seq<Task>)
    ensures forall i :: 0 <= i < |l| ==> BoardNames(l)[i] == l[i].boardName
    ensures forall b :: b in BoardNames(l) <==> exists t :: t in l && t.boardName == b
  {
    if |l| > 0 {
      BoardNamesAt(l[1..]);
      assert l == [l[0]] + l[1..];
      forall i | 1 <= i < |l|
        ensures BoardNames(l)[i] == l[i].boardName
      {
        assert BoardNames(l)[i] == BoardNames(l[1..])[i - 1];
      }
    }
  }

  predicate NoDup(s: seq<string>) {
    forall i, j :: 0 <= i < j < |s| ==> s[i] != s[j]
  }

  /** Zero-based index of the first occurrence of x in s, or |s| when x does not occur. */
  function FirstIndex(s: seq<string>, x: string): (i: nat)
    ensures i <= |s|
    ensures i < |s| <==> x in s
    ensures i < |s| ==> s[i] == x
  {
    if |s| == 0 then 0
    else if s[0] == x then 0
    else
      var j := FirstIndex(s[1..], x);
      assert x in s ==> x in s[1..] by {
        if x in s {
          var k :| 0 <= k < |s| && s[k] == x;
          assert s[1..][k - 1] == x;
        }
      }
      1 + j
  }

  /**
   * itertools `unique` run with a set of names already seen: each name is
   * kept the first time it turns up and dropped afterwards.
   */
  function Unique(s: seq<string>, seen: set<string>): (r: seq<string>)
    ensures |r| <= |s|
  {
    if |s| == 0 then []
    else if s[0] in seen then Unique(s[1..], seen)
    else [s[0]] + Unique(s[1..], seen + {s[0]})
  }

  /** The distinct names of s in the order they are first seen. */
  function Distinct(s: seq<string>): seq<string> {
    Unique(s, {})
  }

  lemma {:induction false} UniqueMembers(s: seq<string>, seen: set<string>)
    ensures forall x :: x in Unique(s, seen) <==> x in s && x !in seen
  {
    if |s| > 0 {
      UniqueMembers(s[1..], seen);
      UniqueMembers(s[1..], seen + {s[0]});
      assert s == [s[0]] + s[1..];
    }
  }

  lemma {:induction false} UniqueNoDup(s: seq<string>, seen: set<string>)
    ensures NoDup(Unique(s, seen))
  {
    if |s| > 0 {
      if s[0] in seen {
        UniqueNoDup(s[1..], seen);
      } else {
        UniqueNoDup(s[1..], seen + {s[0]});
        UniqueMembers(s[1..], seen + {s[0]});
      }
    }
  }

  /** Names of s ordered by where each first occurs in `names`. */
  predicate SeenOrder(s: seq<string>, names: seq<string>) {
    forall i, j :: 0 <= i < j < |s| ==> FirstIndex(names, s[i]) < FirstIndex(names, s[j])
  }

  lemma SeenOrderNoDup(s: seq<string>, names: seq<string>)
    requires SeenOrder(s, names)
    ensures NoDup(s)
  {
  }

  lemma ConsSeenOrder(x: string, rest: seq<string>, names: seq<string>)
    requires SeenOrder(rest, names)
    requires forall y :: y in rest ==> FirstIndex(names, x) < FirstIndex(names, y)
    ensures SeenOrder([x] + rest, names)
  {
    forall i, j | 0 <= i < j < |rest| + 1
      ensures FirstIndex(names, ([x] + rest)[i]) < FirstIndex(names, ([x] + rest)[j])
    {
      ConsSeenPair(x, rest, names, i, j);
    }
  }

  lemma ConsSeenPair(x: string, rest: seq<string>, names: seq<string>, i: nat, j: nat)
    requires SeenOrder(rest, names)
    requires forall y :: y in rest ==> FirstIndex(names, x) < FirstIndex(names, y)
    requires i < j <= |rest|
    ensures FirstIndex(names, ([x] + rest)[i]) < FirstIndex(names, ([x] + rest)[j])
  {
    var s := [x] + rest;
    assert s[j] == rest[j - 1];
    if i > 0 {
      assert s[i] == rest[i - 1];
    } else {
      assert rest[j - 1] in rest;
    }
  }

  /** Names not equal to the head of `names` keep their relative first-seen order in its tail. */
  lemma SeenOrderShift(rest: seq<string>, names: seq<string>)
    requires |names| > 0 && SeenOrder(rest, names[1..])
    requires forall y :: y in rest ==> y != names[0]
    ensures SeenOrder(rest, names)
  {
    forall i, j | 0 <= i < j < |rest|
      ensures FirstIndex(names, rest[i]) < FirstIndex(names, rest[j])
    {
      assert rest[i] in rest && rest[j] in rest;
    }
  }

  /** Names come out in the order of their first occurrence in s. */
  lemma {:induction false} UniqueFirstSeen(s: seq<string>, seen: set<string>)
    ensures SeenOrder(Unique(s, seen), s)
  {
    if |s| > 0 {
      var more := if s[0] in seen then seen else seen + {s[0]};
      var rest := Unique(s[1..], more);
      UniqueFirstSeen(s[1..], more);
      UniqueMembers(s[1..], more);
      SeenOrderShift(rest, s);
      if s[0] !in seen {
        ConsSeenOrder(s[0], rest, s);
      }
    }
  }

  /** Distinct names: each name of s exactly once, in first-seen order. */
  lemma DistinctFirstSeen(s: seq<string>)
    ensures forall x :: x in Distinct(s) <==> x in s
    ensures NoDup(Distinct(s))
    ensures SeenOrder(Distinct(s), s)
  {
    UniqueMembers(s, {});
    UniqueNoDup(s, {});
    UniqueFirstSeen(s, {});
  }

  /** `retain(|x| x != name)`: every occurrence of name dropped, the rest kept in order. */
  function Erase(s: seq<string>, name: string): (r: seq<string>)
    ensures |r| <= |s|
  {
    if |s| == 0 then [] else (if s[0] == name then [] else [s[0]]) + Erase(s[1..], name)
  }

  lemma {:induction false} EraseMembers(s: seq<string>, name: string)
    ensures forall x :: x in Erase(s, name) <==> x in s && x != name
  {
    if |s| > 0 {
      EraseMembers(s[1..], name);
      assert s == [s[0]] + s[1..];
    }
  }

  /** Erasing keeps what is left in its first-seen order. */
  lemma {:induction false} EraseSeenOrder(s: seq<string>, name: string, names: seq<string>)
    requires SeenOrder(s, names)
    ensures SeenOrder(Erase(s, name), names)
  {
    if |s| > 0 {
      assert SeenOrder(s[1..], names) by {
        forall i, j | 0 <= i < j < |s| - 1
          ensures FirstIndex(names, s[1..][i]) < FirstIndex(names, s[1..][j])
        {
          assert s[1..][i] == s[i + 1] && s[1..][j] == s[j + 1];
        }
      }
      EraseSeenOrder(s[1..], name, names);
      var rest := Erase(s[1..], name);
      if s[0] != name {
        EraseMembers(s[1..], name);
        forall y | y in rest
          ensures FirstIndex(names, s[0]) < FirstIndex(names, y)
        {
          var k :| 0 <= k < |s[1..]| && s[1..][k] == y;
          assert s[k + 1] == y;
        }
        ConsSeenOrder(s[0], rest, names);
      }
    }
  }

  lemma {:induction false} EraseAbsent(s: seq<string>, name: string)
    requires name !in s
    ensures Erase(s, name) == s
  {
    if |s| > 0 {
      assert name !in s[1..] by { assert s == [s[0]] + s[1..]; }
      EraseAbsent(s[1..], name);
      assert s == [s[0]] + s[1..];
    }
  }

  /** The custom boards: distinct board names in first-seen order with the default board removed. */
  function Customs(l: seq<Task>): seq<string> {
    Erase(Distinct(BoardNames(l)), DefaultBoard)
  }

  /** Every custom board is named by some item, occurs once, and is never the default board. */
  lemma CustomsSpec(l: seq<Task>)
    ensures NoDup(Customs(l)) && DefaultBoard !in Customs(l)
    ensures forall b :: b in Customs(l) <==> b != DefaultBoard && b in BoardNames(l)
    ensures SeenOrder(Customs(l), BoardNames(l))
  {
    var names := BoardNames(l);
    var d := Distinct(names);
    DistinctFirstSeen(names);
    EraseMembers(d, DefaultBoard);
    EraseSeenOrder(d, DefaultBoard, names);
    SeenOrderNoDup(Customs(l), names);
  }

  /** The items filed on board b, in ledger order. */
  function OnBoard(l: seq<Task>, b: string): (r: seq<Task>)
    ensures |r| <= |l|
  {
    if |l| == 0 then [] else (if l[0].boardName == b then [l[0]] else []) + OnBoard(l[1..], b)
  }

  lemma {:induction false} OnBoardMembers(l: seq<Task>, b: string)
    ensures forall t :: t in OnBoard(l, b) <==> t in l && t.boardName == b
  {
    if |l| > 0 {
      OnBoardMembers(l[1..], b);
      assert l == [l[0]] + l[1..];
    }
  }

  lemma {:induction false} OnBoardCount(l: seq<Task>, b: string, t: Task)
    ensures multiset(OnBoard(l, b))[t] == if t.boardName == b then multiset(l)[t] else 0
  {
    if |l| > 0 {
      var h := l[0];
      OnBoardCount(l[1..], b, t);
      assert l == [h] + l[1..];
      var own := if h.boardName == b then [h] else [];
      assert OnBoard(l, b) == own + OnBoard(l[1..], b);
    }
  }

  lemma {:induction false} OnBoardOfConcat(a: seq<Task>, c: seq<Task>, b: string)
    ensures OnBoard(a + c, b) == OnBoard(a, b) + OnBoard(c, b)
  {
    if |a| == 0 {
      assert a + c == c;
    } else {
      var h, t := a[0], a[1..];
      assert a == [h] + t;
      assert a + c == [h] + (t + c);
      OnBoardCons(h, t, b);
      OnBoardCons(h, t + c, b);
      OnBoardOfConcat(t, c, b);
      var own, x, y := if h.boardName == b then [h] else [], OnBoard(t, b), OnBoard(c, b);
      assert own + (x + y) == (own + x) + y;
    }
  }

  lemma OnBoardCons(h: Task, t: seq<Task>, b: string)
    ensures OnBoard([h] + t, b) == (if h.boardName == b then [h] else []) + OnBoard(t, b)
  {
    assert ([h] + t)[1..] == t;
  }

  /** Taking one board of one board's items gives that board back, or nothing. */
  lemma {:induction false} OnBoardOfOnBoard(l: seq<Task>, b: string, c: string)
    ensures OnBoard(OnBoard(l, b), c) == if b == c then OnBoard(l, b) else []
  {
    if |l| > 0 {
      OnBoardOfOnBoard(l[1..], b, c);
      var own := if l[0].boardName == b then [l[0]] else [];
      OnBoardOfConcat(own, OnBoard(l[1..], b), c);
    }
  }

  lemma {:induction false} OnBoardOfAbsent(l: seq<Task>, b: string)
    requires b !in BoardNames(l)
    ensures OnBoard(l, b) == []
  {
    if |l| > 0 {
      assert BoardNames(l) == [l[0].boardName] + BoardNames(l[1..]);
      OnBoardOfAbsent(l[1..], b);
    }
  }

  lemma {:induction false} OnBoardOfPresent(l: seq<Task>, b: string)
    requires b in BoardNames(l)
    ensures |OnBoard(l, b)| >= 1
  {
    assert |l| > 0;
    assert BoardNames(l) == [l[0].boardName] + BoardNames(l[1..]);
    if l[0].boardName != b {
      OnBoardOfPresent(l[1..], b);
    }
  }

  /** The items of the boards in `order`, board after board, each board in ledger order. */
  function Blocks(l: seq<Task>, order: seq<string>): seq<Task>
  {
    if |order| == 0 then [] else OnBoard(l, order[0]) + Blocks(l, order[1..])
  }

  lemma {:induction false} BlocksCount(l: seq<Task>, order: seq<string>, t: Task)
    requires NoDup(order)
    ensures multiset(Blocks(l, order))[t] == if t.boardName in order then multiset(l)[t] else 0
  {
    if |order| > 0 {
      BlocksCount(l, order[1..], t);
      OnBoardCount(l, order[0], t);
      assert order == [order[0]] + order[1..];
      assert order[0] !in order[1..];
    }
  }

  /** Blocks over a duplicate-free order naming every board is a permutation of the ledger. */
  lemma BlocksPermutation(l: seq<Task>, order: seq<string>)
    requires NoDup(order)
    requires forall i :: 0 <= i < |l| ==> l[i].boardName in order
    ensures multiset(Blocks(l, order)) == multiset(l)
    ensures |Blocks(l, order)| == |l|
  {
    forall t
      ensures multiset(Blocks(l, order))[t] == multiset(l)[t]
    {
      BlocksCount(l, order, t);
    }
    assert multiset(Blocks(l, order)) == multiset(l);
    assert |multiset(Blocks(l, order))| == |multiset(l)|;
  }

  /** Regrouping keeps each listed board's items and their order. */
  lemma {:induction false} OnBoardOfBlocks(l: seq<Task>, order: seq<string>, b: string)
    requires NoDup(order)
    ensures OnBoard(Blocks(l, order), b) == if b in order then OnBoard(l, b) else []
  {
    if |order| > 0 {
      OnBoardOfBlocks(l, order[1..], b);
      OnBoardOfConcat(OnBoard(l, order[0]), Blocks(l, order[1..]), b);
      OnBoardOfOnBoard(l, order[0], b);
      assert order == [order[0]] + order[1..];
    }
  }

  /** Regrouping an already regrouped ledger by the same order changes nothing. */
  lemma {:induction false} BlocksOfBlocks(l: seq<Task>, order: seq<string>, outer: seq<string>)
    requires NoDup(order)
    requires forall b :: b in outer ==> b in order
    ensures Blocks(Blocks(l, order), outer) == Blocks(l, outer)
  {
    if |outer| > 0 {
      BlocksOfBlocks(l, order, outer[1..]);
      OnBoardOfBlocks(l, order, outer[0]);
    }
  }

  /**
   * Position of board b in `order`, or |order| when b is not listed: the
   * sort key of an item on board b.
   */
  function Rank(order: seq<string>, b: string): nat {
    FirstIndex(order, b)
  }

  /** Items appear with non-decreasing rank: all of one board before any of a later board. */
  predicate RankOrdered(s: seq<Task>, order: seq<string>) {
    forall i, j :: 0 <= i < j < |s| ==> Rank(order, s[i].boardName) <= Rank(order, s[j].boardName)
  }

  lemma {:induction false} OnBoardAll(l: seq<Task>, b: string)
    ensures forall i :: 0 <= i < |OnBoard(l, b)| ==> OnBoard(l, b)[i].boardName == b
  {
    OnBoardMembers(l, b);
    forall i | 0 <= i < |OnBoard(l, b)|
      ensures OnBoard(l, b)[i].boardName == b
    {
      assert OnBoard(l, b)[i] in OnBoard(l, b);
    }
  }

  /** Blocks lists the boards of `order` one after another, so it is ordered by rank. */
  lemma {:induction false} BlocksRankOrdered(l: seq<Task>, order: seq<string>)
    requires NoDup(order)
    ensures RankOrdered(Blocks(l, order), order)
    ensures forall i :: 0 <= i < |Blocks(l, order)| ==> Blocks(l, order)[i].boardName in order
  {
    if |order| > 0 {
      BlocksRankOrdered(l, order[1..]);
      OnBoardAll(l, order[0]);
      PrependRun(OnBoard(l, order[0]), Blocks(l, order[1..]), order);
    }
  }

  /** A run of the first board in front of a ledger ranked by the rest of the order stays rank-ordered. */
  lemma PrependRun(head: seq<Task>, tail: seq<Task>, order: seq<string>)
    requires NoDup(order) && |order| > 0
    requires forall i :: 0 <= i < |head| ==> head[i].boardName == order[0]
    requires forall i :: 0 <= i < |tail| ==> tail[i].boardName in order[1..]
    requires RankOrdered(tail, order[1..])
    ensures RankOrdered(head + tail, order)
    ensures forall i :: 0 <= i < |head + tail| ==> (head + tail)[i].boardName in order
  {
    var rest := order[1..];
    RankOrderedLift(tail, order);
    var s := head + tail;
    forall i, j | 0 <= i < j < |s|
      ensures Rank(order, s[i].boardName) <= Rank(order, s[j].boardName)
    {
      if i < |head| {
        assert s[i].boardName == order[0];
      } else {
        assert s[i] == tail[i - |head|] && s[j] == tail[j - |head|];
      }
    }
    forall i | 0 <= i < |s|
      ensures s[i].boardName in order
    {
      if i >= |head| {
        assert s[i] == tail[i - |head|];
        assert order == [order[0]] + rest;
      }
    }
  }

  /** Rank in the rest of the order and rank in the whole order agree up to one. */
  lemma RankOrderedLift(s: seq<Task>, order: seq<string>)
    requires NoDup(order) && |order| > 0
    requires forall i :: 0 <= i < |s| ==> s[i].boardName in order[1..]
    ensures RankOrdered(s, order[1..]) <==> RankOrdered(s, order)
  {
    var rest := order[1..];
    assert order[0] !in rest;
    assert forall c :: c in rest ==> Rank(order, c) == 1 + Rank(rest, c);
  }

  /** The leading items of s that lie on board b. */
  function LeadRun(s: seq<Task>, b: string): (n: nat)
    ensures n <= |s|
    ensures forall i :: 0 <= i < n ==> s[i].boardName == b
    ensures n < |s| ==> s[n].boardName != b
  {
    if |s| == 0 || s[0].boardName != b then 0
    else
      var n := LeadRun(s[1..], b);
      assert forall i :: 1 <= i < n + 1 ==> s[i] == s[1..][i - 1];
      1 + n
  }

  /**
   * A ledger ordered by rank over a duplicate-free order that lists all its
   * boards is exactly its own regrouping: regrouping only ever puts items
   * into rank order, which they are already in.
   */
  lemma {:induction false} BlocksOfOrdered(s: seq<Task>, order: seq<string>)
    requires NoDup(order) && RankOrdered(s, order)
    requires forall i :: 0 <= i < |s| ==> s[i].boardName in order
    ensures Blocks(s, order) == s
    decreases |order|
  {
    if |order| == 0 {
      assert |s| == 0;
    } else {
      var n := LeadRun(s, order[0]);
      AfterLeadRun(s, order, n);
      BlocksOfOrdered(s[n..], order[1..]);
      JoinAfterLeadRun(s, order, n);
    }
  }

  /** Regrouping leaves the leading run of the first board in place when the rest is already grouped. */
  lemma JoinAfterLeadRun(s: seq<Task>, order: seq<string>, n: nat)
    requires NoDup(order) && |order| > 0
    requires n == LeadRun(s, order[0])
    requires forall i :: 0 <= i < |s[n..]| ==> s[n..][i].boardName in order[1..]
    requires Blocks(s[n..], order[1..]) == s[n..]
    ensures Blocks(s, order) == s
  {
    assert order[0] !in order[1..];
    OffBoard(s[n..], order[1..], order[0]);
    JoinRun(s, n, order);
  }

  /** The split of JoinAfterLeadRun at `n`, stated without NoDup so its proof stays small. */
  lemma JoinRun(s: seq<Task>, n: nat, order: seq<string>)
    requires n <= |s| && |order| > 0
    requires forall i :: 0 <= i < n ==> s[i].boardName == order[0]
    requires forall i :: 0 <= i < |s[n..]| ==> s[n..][i].boardName != order[0]
    requires order[0] !in order[1..]
    requires Blocks(s[n..], order[1..]) == s[n..]
    ensures Blocks(s, order) == s
  {
    var b, rest := order[0], order[1..];
    var head, tail := s[..n], s[n..];
    assert s == head + tail;
    OnBoardOfNone(tail, b);
    OnBoardOfRun(head, b);
    OnBoardOfConcat(head, tail, b);
    assert head + [] == head;
    BlocksIgnoresOther(head, tail, rest, b);
  }

  /** Items whose boards all lie in `rest` are not on a board outside it. */
  lemma OffBoard(s: seq<Task>, rest: seq<string>, b: string)
    requires forall i :: 0 <= i < |s| ==> s[i].boardName in rest
    requires b !in rest
    ensures forall i :: 0 <= i < |s| ==> s[i].boardName != b
  {
  }

  /**
   * In a rank-ordered ledger nothing on the first board of the order
   * follows the leading run of that board, and what follows is rank-ordered
   * by the rest of the order.
   */
  lemma AfterLeadRun(s: seq<Task>, order: seq<string>, n: nat)
    requires NoDup(order) && |order| > 0 && RankOrdered(s, order)
    requires forall i :: 0 <= i < |s| ==> s[i].boardName in order
    requires n == LeadRun(s, order[0])
    ensures forall i :: 0 <= i < |s[n..]| ==> s[n..][i].boardName in order[1..]
    ensures RankOrdered(s[n..], order[1..])
  {
    AfterLeadRunBoards(s, order, n);
    RankOrderedSuffix(s, order, n);
    RankOrderedLift(s[n..], order);
  }

  lemma RankOrderedSuffix(s: seq<Task>, order: seq<string>, n: nat)
    requires n <= |s| && RankOrdered(s, order)
    ensures RankOrdered(s[n..], order)
  {
    var tail := s[n..];
    forall i, j | 0 <= i < j < |tail|
      ensures Rank(order, tail[i].boardName) <= Rank(order, tail[j].boardName)
    {
      assert tail[i] == s[n + i] && tail[j] == s[n + j];
    }
  }

  lemma AfterLeadRunBoards(s: seq<Task>, order: seq<string>, n: nat)
    requires NoDup(order) && |order| > 0 && RankOrdered(s, order)
    requires forall i :: 0 <= i < |s| ==> s[i].boardName in order
    requires n == LeadRun(s, order[0])
    ensures forall i :: 0 <= i < |s[n..]| ==> s[n..][i].boardName in order[1..]
  {
    var b, rest, tail := order[0], order[1..], s[n..];
    assert order == [b] + rest;
    forall i | 0 <= i < |tail|
      ensures tail[i].boardName in rest
    {
      assert tail[i] == s[n + i];
      assert Rank(order, s[n].boardName) >= 1;
      assert Rank(order, s[n].boardName) <= Rank(order, s[n + i].boardName);
    }
  }

  lemma {:induction false} OnBoardOfRun(s: seq<Task>, b: string)
    requires forall i :: 0 <= i < |s| ==> s[i].boardName == b
    ensures OnBoard(s, b) == s
  {
    if |s| > 0 {
      OnBoardOfRun(s[1..], b);
      assert s == [s[0]] + s[1..];
    }
  }

  lemma {:induction false} OnBoardOfNone(s: seq<Task>, b: string)
    requires forall i :: 0 <= i < |s| ==> s[i].boardName != b
    ensures OnBoard(s, b) == []
  {
    if |s| > 0 {
      OnBoardOfNone(s[1..], b);
    }
  }

  /** Boards other than b ignore a leading run on board b. */
  lemma {:induction false} BlocksIgnoresOther(head: seq<Task>, tail: seq<Task>, rest: seq<string>, b: string)
    requires forall i :: 0 <= i < |head| ==> head[i].boardName == b
    requires b !in rest
    ensures Blocks(head + tail, rest) == Blocks(tail, rest)
  {
    if |rest| > 0 {
      BlocksIgnoresOther(head, tail, rest[1..], b);
      OnBoardOfConcat(head, tail, rest[0]);
      OnBoardOfNone(head, rest[0]);
    }
  }

  /** Per-board header figures: items on the board, and how many of them are checked. */
  datatype BoardCount = BoardCount(name: string, completed: nat, total: nat)

  /**
   * The per-board pass of the report: every board of `order` with its
   * total (notes included) and completed (checked items, notes included)
   * counts, computed with one sweep of the ledger per board.
   */
  method CountBoards(l: seq<Task>, order: seq<string>) returns (counts: seq<BoardCount>)
    ensures |counts| == |order|
    ensures forall k :: 0 <= k < |order| ==>
              counts[k] == BoardCount(order[k], |Completed(OnBoard(l, order[k]))|, |OnBoard(l, order[k])|)
  {
    counts := [];
    var k := 0;
    while k < |order|
      invariant 0 <= k <= |order| && |counts| == k
      invariant forall m :: 0 <= m < k ==>
                  counts[m] == BoardCount(order[m], |Completed(OnBoard(l, order[m]))|, |OnBoard(l, order[m])|)
    {
      var board := order[k];
      var bc, bt := 0, 0;
      var i := 0;
      while i < |l|
        invariant 0 <= i <= |l|
        invariant bt == |OnBoard(l[..i], board)|
        invariant bc == |Completed(OnBoard(l[..i], board))|
      {
        assert l[..i + 1] == l[..i] + [l[i]];
        OnBoardOfConcat(l[..i], [l[i]], board);
        CompletedOfConcat(OnBoard(l[..i], board), OnBoard([l[i]], board));
        if l[i].boardName == board {
          bt := bt + 1;
          if l[i].checked {
            bc := bc + 1;
          }
        }
        i := i + 1;
      }
      assert l[..i] == l;
      counts := counts + [BoardCount(board, bc, bt)];
      k := k + 1;
    }
  }

  /** A listed board's completed count never exceeds its total, which is positive for a board in use. */
  lemma BoardCountBounds(l: seq<Task>, b: string)
    ensures |Completed(OnBoard(l, b))| <= |OnBoard(l, b)|
    ensures b in BoardNames(l) ==> |OnBoard(l, b)| >= 1
  {
    if b in BoardNames(l) {
      OnBoardOfPresent(l, b);
    }
  }

  /** Sum of the totals of a list of board counts. */
  function TotalOf(counts: seq<BoardCount>): nat {
    if |counts| == 0 then 0 else counts[0].total + TotalOf(counts[1..])
  }

  lemma {:induction false} TotalOfBlocks(l: seq<Task>, order: seq<string>, counts: seq<BoardCount>)
    requires |counts| == |order|
    requires forall k :: 0 <= k < |order| ==> counts[k].total == |OnBoard(l, order[k])|
    ensures TotalOf(counts) == |Blocks(l, order)|
  {
    if |order| > 0 {
      TotalOfBlocks(l, order[1..], counts[1..]);
    }
  }

  /** Over the distinct board list, the per-board totals add up to the ledger length. */
  lemma TotalsCoverLedger(l: seq<Task>, counts: seq<BoardCount>)
    requires |counts| == |Distinct(BoardNames(l))|
    requires forall k :: 0 <= k < |counts| ==> counts[k].total == |OnBoard(l, Distinct(BoardNames(l))[k])|
    ensures TotalOf(counts) == |l|
  {
    var order := Distinct(BoardNames(l));
    DistinctFirstSeen(BoardNames(l));
    BoardNamesAt(l);
    forall i | 0 <= i < |l|
      ensures l[i].boardName in order
    {
      assert BoardNames(l)[i] == l[i].boardName;
    }
    BlocksPermutation(l, order);
    TotalOfBlocks(l, order, counts);
  }

  /** The footer's completed count: checked items that are not notes. */
  function DoneTasks(l: seq<Task>): (n: nat)
    ensures n <= |Completed(l)|
  {
    if |l| == 0 then 0 else (if l[0].checked && !l[0].note then 1 else 0) + DoneTasks(l[1..])
  }

  /** The notes, in ledger order. */
  function Notes(l: seq<Task>): (r: seq<Task>)
    ensures |r| <= |l|
  {
    if |l| == 0 then [] else (if l[0].note then [l[0]] else []) + Notes(l[1..])
  }

  /** Checked notes are the only checked items the footer leaves out; without them it counts every checked item. */
  lemma {:induction false} DoneTasksWithoutNotes(l: seq<Task>)
    ensures Notes(l) == [] ==> DoneTasks(l) == |Completed(l)|
    ensures DoneTasks(l) + |Notes(l)| <= |l|
  {
    if |l| > 0 {
      DoneTasksWithoutNotes(l[1..]);
    }
  }

  /** Over any ledger, the footer counts the checked items less the checked notes. */
  lemma {:induction false} DoneTasksAreCheckedTasks(l: seq<Task>)
    ensures DoneTasks(l) + |Notes(Completed(l))| == |Completed(l)|
  {
    if |l| > 0 {
      DoneTasksAreCheckedTasks(l[1..]);
      var c := Completed(l[1..]);
      if l[0].checked {
        assert Completed(l) == [l[0]] + c;
        assert ([l[0]] + c)[1..] == c;
      } else {
        assert Completed(l) == c;
      }
    }
  }

  lemma {:induction false} NotesCount(l: seq<Task>, t: Task)
    ensures multiset(Notes(l))[t] == if t.note then multiset(l)[t] else 0
  {
    if |l| > 0 {
      var h := l[0];
      NotesCount(l[1..], t);
      assert l == [h] + l[1..];
      var own := if h.note then [h] else [];
      assert Notes(l) == own + Notes(l[1..]);
    }
  }

  /** Reordering a ledger does not change how many notes it holds. */
  lemma NotesOfPermutation(a: seq<Task>, b: seq<Task>)
    requires multiset(a) == multiset(b)
    ensures |Notes(a)| == |Notes(b)|
  {
    forall t
      ensures multiset(Notes(a))[t] == multiset(Notes(b))[t]
    {
      NotesCount(a, t);
      NotesCount(b, t);
    }
    assert multiset(Notes(a)) == multiset(Notes(b));
    assert |multiset(Notes(a))| == |multiset(Notes(b))|;
  }

  /** The footer's first pass: how many items are checked tasks rather than notes. */
  method CountDone(l: seq<Task>) returns (n: nat)
    ensures n == DoneTasks(l)
  {
    n := 0;
    for i := 0 to |l|
      invariant n + DoneTasks(l[i..]) == DoneTasks(l)
    {
      assert l[i..][1..] == l[i + 1..];
      if l[i].checked && !l[i].note {
        n := n + 1;
      }
    }
  }

  /** The notes met while printing a listing, one sweep over it. */
  method CountNotes(listing: seq<Task>) returns (n: nat)
    ensures n == |Notes(listing)|
  {
    n := 0;
    for i := 0 to |listing|
      invariant n + |Notes(listing[i..])| == |Notes(listing)|
    {
      assert listing[i..][1..] == listing[i + 1..];
      if listing[i].note {
        n := n + 1;
      }
    }
  }

  /**
   * What a board report shows, rendering aside: the per-board figures in
   * first-seen board order, the boards in the order their headers appear,
   * the items in the order they are numbered 1, 2, ..., and the footer's
   * completed, open and note counts.
   */
  datatype Summary = Summary(
    counts: seq<BoardCount>,
    headers: seq<string>,
    listing: seq<Task>,
    completed: nat,
    open: nat,
    notes: nat)
}

=== FILE: config.dfy ===
/**
 * The `Config` lineage (`src/config.rs`): the ledger lives in a `Tasks`
 * wrapper, is regrouped by board when loaded, and its commands address
 * items by the zero-based positions `get_numbers` produces. In this
 * lineage the store writes are not made, so a command's result is the
 * ledger it leaves in memory.
 */
module Config {
  import opened Maybe
  import opened Text
  import opened Entity
  import opened Partition
  import opened Positions
  import opened Boards
  import opened Sorting
  import opened Resolve
  import Tasks

  /** `Tasks`: the wrapper around the ledger. */
  datatype TaskList = TaskList(tasks: seq<Task>)

  /** `Tasks::remove`: drop the item at a position, closing the gap. */
  function Remove(w: TaskList, index: nat): (r: TaskList)
    requires index < |w.tasks|
    ensures |r.tasks| == |w.tasks| - 1
    ensures forall i :: 0 <= i < index ==> r.tasks[i] == w.tasks[i]
    ensures forall i :: index <= i < |r.tasks| ==> r.tasks[i] == w.tasks[i + 1]
  {
    TaskList(RemoveAt(w.tasks, index))
  }

  /** Removing one position leaves exactly the other items, in order. */
  lemma RemoveIsSurvivors(w: TaskList, index: nat)
    requires index < |w.tasks|
    ensures Remove(w, index).tasks == Survivors(w.tasks, {index})
  {
    var none: set<nat> := {};
    assert none + {index} == {index};
    SurvivorsSkip(w.tasks, none, index);
    SurvivorsOfUntouched(w.tasks[..index], none);
  }

  /** `Tasks::push`: add an item at the end. */
  function Push(w: TaskList, t: Task): (r: TaskList)
    ensures |r.tasks| == |w.tasks| + 1 && r.tasks[|w.tasks|] == t
    ensures forall i :: 0 <= i < |w.tasks| ==> r.tasks[i] == w.tasks[i]
  {
    TaskList(w.tasks + [t])
  }

  /** Removing what was just pushed gives the wrapper back. */
  lemma PushThenRemove(w: TaskList, t: Task)
    ensures Remove(Push(w, t), |w.tasks|) == w
  {
    assert RemoveAt(w.tasks + [t], |w.tasks|) == w.tasks;
  }

  /** `PartialEq for Tasks`: the ledgers agree item by item under item equality. */
  predicate Equal(a: TaskList, b: TaskList)
    ensures Equal(a, b) <==> Items(a.tasks) == Items(b.tasks)
  {
    SameItemsIffItems(a.tasks, b.tasks);
    SameItems(a.tasks, b.tasks)
  }

  /** An id the config toggle refuses: past the end, or addressing a note. */
  predicate Refused(l: seq<Task>, id: nat) {
    id > |l| || (id < |l| && l[id].note)
  }

  /** The config toggle never indexes at the length: every id it reaches before a refusal lies inside the ledger. */
  predicate ToggleDefined(l: seq<Task>, ids: seq<nat>) {
    |ids| == 0 || Refused(l, ids[0]) || (ids[0] < |l| && ToggleDefined(l, ids[1..]))
  }

  /** Two ledgers of the same length with notes at the same positions. */
  predicate SameShape(a: seq<Task>, b: seq<Task>) {
    |a| == |b| && forall i :: 0 <= i < |a| ==> a[i].note == b[i].note
  }

  /** Refusals and definedness only look at the length and the note flags. */
  lemma {:induction false} ShapeDecides(a: seq<Task>, b: seq<Task>, ids: seq<nat>)
    requires SameShape(a, b)
    ensures ToggleDefined(a, ids) == ToggleDefined(b, ids)
    ensures forall k :: 0 <= k < |ids| ==> Refused(a, ids[k]) == Refused(b, ids[k])
  {
    if |ids| > 0 {
      ShapeDecides(a, b, ids[1..]);
    }
  }

  /**
   * The toggle loop of `Config::check_task`: each zero-based id flips its
   * item; an id past the end or on a note stops the run with nothing kept.
   */
  function Toggle(l: seq<Task>, ids: seq<nat>): (r: Option<seq<Task>>)
    requires ToggleDefined(l, ids)
    ensures r.None? <==> exists k :: 0 <= k < |ids| && Refused(l, ids[k])
    ensures r.Some? ==> FlippedBy(l, r.value, multiset(ids), 0)
    ensures r.Some? ==> forall k :: 0 <= k < |ids| ==> ids[k] < |l| && !l[ids[k]].note
    decreases |ids|
  {
    if |ids| == 0 then Some(l)
    else if Refused(l, ids[0]) then None
    else
      FlipKeepsShape(l, ids[0], ids[1..]);
      var r := Toggle(Flip(l, ids[0]), ids[1..]);
      ToggleStep(l, ids, r);
      r
  }

  /** Flipping one item changes no note flag, so it changes nothing the refusal rule looks at. */
  lemma FlipKeepsShape(l: seq<Task>, i: nat, ids: seq<nat>)
    requires i < |l|
    ensures ToggleDefined(Flip(l, i), ids) == ToggleDefined(l, ids)
    ensures forall k :: 0 <= k < |ids| ==> Refused(Flip(l, i), ids[k]) == Refused(l, ids[k])
  {
    assert SameShape(l, Flip(l, i));
    ShapeDecides(l, Flip(l, i), ids);
  }

  /** One step of the loop: an accepted first id flipped before the rest is flipping them all. */
  lemma ToggleStep(l: seq<Task>, ids: seq<nat>, r: Option<seq<Task>>)
    requires |ids| > 0 && ids[0] < |l| && !l[ids[0]].note
    requires r.None? <==> exists k :: 0 <= k < |ids[1..]| && Refused(Flip(l, ids[0]), ids[1..][k])
    requires r.Some? ==> FlippedBy(Flip(l, ids[0]), r.value, multiset(ids[1..]), 0)
    requires r.Some? ==> forall k :: 0 <= k < |ids[1..]| ==>
                           ids[1..][k] < |Flip(l, ids[0])| && !Flip(l, ids[0])[ids[1..][k]].note
    ensures r.None? <==> exists k :: 0 <= k < |ids| && Refused(l, ids[k])
    ensures r.Some? ==> FlippedBy(l, r.value, multiset(ids), 0)
    ensures r.Some? ==> forall k :: 0 <= k < |ids| ==> ids[k] < |l| && !l[ids[k]].note
  {
    RefusedStep(l, ids);
    if r.Some? {
      AcceptedStep(l, ids);
      FlipThen(l, ids[0], ids[1..], r.value, 0);
      assert ids == [ids[0]] + ids[1..];
    }
  }

  lemma RefusedStep(l: seq<Task>, ids: seq<nat>)
    requires |ids| > 0 && ids[0] < |l| && !l[ids[0]].note
    ensures (exists k :: 0 <= k < |ids| && Refused(l, ids[k])) <==>
            (exists k :: 0 <= k < |ids[1..]| && Refused(Flip(l, ids[0]), ids[1..][k]))
  {
    FlipKeepsShape(l, ids[0], ids[1..]);
    assert forall k :: 1 <= k < |ids| ==> ids[k] == ids[1..][k - 1];
  }

  lemma AcceptedStep(l: seq<Task>, ids: seq<nat>)
    requires |ids| > 0 && ids[0] < |l| && !l[ids[0]].note
    requires forall k :: 0 <= k < |ids[1..]| ==>
               ids[1..][k] < |Flip(l, ids[0])| && !Flip(l, ids[0])[ids[1..][k]].note
    ensures forall k :: 0 <= k < |ids| ==> ids[k] < |l| && !l[ids[k]].note
  {
    forall k | 1 <= k < |ids|
      ensures ids[k] < |l| && !l[ids[k]].note
    {
      assert ids[k] == ids[1..][k - 1];
    }
  }

  /** A run that went through flipped no note. */
  lemma NotesNeverToggled(l: seq<Task>, ids: seq<nat>)
    requires ToggleDefined(l, ids)
    ensures Toggle(l, ids).Some? ==> forall i :: 0 <= i < |l| && l[i].note ==> Toggle(l, ids).value[i] == l[i]
  {
    var r := Toggle(l, ids);
    if r.Some? {
      forall i | 0 <= i < |l| && l[i].note
        ensures r.value[i] == l[i]
      {
        assert forall k :: 0 <= k < |ids| ==> ids[k] != i;
        assert multiset(ids)[i] == 0;
      }
    }
  }

  /**
   * `Config::check_task`: no resolvable id aborts; otherwise flip every
   * addressed item, or abort with nothing changed as soon as an id lies
   * past the end or on a note.
   */
  function CheckTask(l: seq<Task>, args: seq<string>): (r: Outcome)
    requires GetNumbersDefined(args)
    requires GetNumbers(args) == [] ==> |args| >= 2
    requires ToggleDefined(l, GetNumbers(args))
    ensures !r.Emptied?
    ensures var ids := GetNumbers(args);
            && (r.Aborted? <==> ids == [] || exists k :: 0 <= k < |ids| && Refused(l, ids[k]))
            && (r.Updated? ==> FlippedBy(l, r.ledger, multiset(ids), 0))
            && (r.Updated? ==> forall k :: 0 <= k < |ids| ==> ids[k] < |l| && !l[ids[k]].note)
  {
    CheckIds(l, GetNumbers(args))
  }

  /** The outcome of `check_task` once the ids are resolved. */
  function CheckIds(l: seq<Task>, ids: seq<nat>): (r: Outcome)
    requires ToggleDefined(l, ids)
    ensures !r.Emptied?
    ensures r.Aborted? <==> ids == [] || exists k :: 0 <= k < |ids| && Refused(l, ids[k])
    ensures r.Updated? ==> FlippedBy(l, r.ledger, multiset(ids), 0)
    ensures r.Updated? ==> forall k :: 0 <= k < |ids| ==> ids[k] < |l| && !l[ids[k]].note
  {
    if ids == [] then Aborted
    else
      match Toggle(l, ids)
      case None => Aborted
      case Some(m) => Updated(m)
  }

  /** Checking the same ids twice gives the original ledger back. */
  lemma CheckTwiceRestores(l: seq<Task>, args: seq<string>)
    requires GetNumbersDefined(args)
    requires GetNumbers(args) == [] ==> |args| >= 2
    requires ToggleDefined(l, GetNumbers(args))
    ensures CheckTask(l, args).Updated? ==>
              var m := CheckTask(l, args).ledger;
              ToggleDefined(m, GetNumbers(args)) && CheckTask(m, args) == Updated(l)
  {
    var r := CheckTask(l, args);
    if r.Updated? {
      var ids := GetNumbers(args);
      var m := r.ledger;
      assert SameShape(l, m);
      ShapeDecides(l, m, ids);
      var again := CheckTask(m, args);
      FlipTwiceRestores(l, m, again.ledger, multiset(ids), 0);
    }
  }

  /**
   * `d A-B` inside the ledger passes the loop's checks and deletes exactly
   * the items at one-based positions A through B.
   */
  lemma RangeDeletesSpan(l: seq<Task>, verb: string, a: nat, b: nat)
    requires 1 <= a <= b <= |l| && b <= UsizeMax
    ensures var args := [verb, Decimal(a) + "-" + Decimal(b)];
            && GetNumbersDefined(args) && GetNumbers(args) == Span(a - 1, b)
            && CompactDefined(GetNumbers(args), |l|, 0)
            && Compact(l, GetNumbers(args), |l|, 0) == Some(Survivors(l, IdSet(Span(a - 1, b))))
  {
    GetNumbersOfRange(verb, a, b);
    AscendingDeletes(l, Span(a - 1, b));
  }

  /**
   * `Config::delete_task`: no resolvable id aborts; otherwise the same
   * compaction loop as the free-function lineage, and a ledger left empty
   * truncates the store.
   */
  method DeleteTask(l: seq<Task>, args: seq<string>) returns (r: Outcome)
    requires GetNumbersDefined(args)
    requires GetNumbers(args) == [] ==> |args| >= 2
    requires CompactDefined(GetNumbers(args), |l|, 0)
    ensures GetNumbers(args) == [] ==> r.Aborted?
    ensures var ids := GetNumbers(args);
            ids != [] ==>
              && (r.Aborted? <==> exists k :: 0 <= k < |ids| && ids[k] >= |l| && ids[k] != 0)
              && (!r.Aborted? ==> |Stored(r, l)| + Hits(ids, |l|) == |l|)
              && (!r.Aborted? ==> Stored(r, l) == Compact(l, ids, |l|, 0).value)
              && (StrictlyAscending(ids) && Below(ids, |l|) ==> Stored(r, l) == Survivors(l, IdSet(ids)))
    ensures r.Updated? ==> |r.ledger| > 0
  {
    var ids := GetNumbers(args);
    if ids == [] {
      return Aborted;
    }
    var kept := DeleteLoop(l, ids);
    if kept.None? {
      return Aborted;
    }
    if |kept.value| == 0 {
      return Emptied;
    }
    return Updated(kept.value);
  }

  /**
   * `Config::add_task`: the task built from the tokens after the command,
   * with the same '!' board rule; it is not added to the ledger.
   */
  function AddTask(args: seq<string>, date: Timestamp): (t: Task)
    requires |args| >= 2
    ensures !t.checked && !t.note && t.date == date
    ensures '!' in args[1] ==> t.boardName == RemoveBangs(args[1]) && t.item == Join(args[2..])
    ensures '!' !in args[1] ==> t.boardName == DefaultBoard && t.item == Join(args[1..])
  {
    assert args[1..][1..] == args[2..];
    NewTask(args[1..], date)
  }

  /** Both lineages build the same task from `a` followed by the same operands. */
  lemma LineagesAddAlike(l: seq<Task>, operands: seq<string>, date: Timestamp)
    requires |operands| >= 1
    ensures Tasks.AddTask(l, ["a"] + operands, date).ledger[|l|] == AddTask(["a"] + operands, date)
  {
    assert Tasks.Operands(["a"] + operands, "a") == operands;
    assert (["a"] + operands)[1..] == operands;
  }

  /** `Config::add_note`: push one unchecked note on the default board holding every token after the command. */
  function AddNote(l: seq<Task>, args: seq<string>, date: Timestamp): (r: seq<Task>)
    requires |args| >= 1
    ensures |r| == |l| + 1 && r[..|l|] == l
    ensures r[|l|].note && !r[|l|].checked && r[|l|].boardName == DefaultBoard && r[|l|].item == Join(args[1..])
    ensures r[|l|].date == date
  {
    var r := Push(TaskList(l), NewNote(args[1..], date)).tasks;
    assert r[..|l|] == l;
    r
  }

  /** `Config::clear_tasks`: the checked items, collected in ledger order; the ledger itself is left as is. */
  method ClearTasks(l: seq<Task>) returns (selected: seq<Task>)
    ensures selected == Completed(l)
    ensures forall t :: t in selected <==> t in l && t.checked
  {
    selected := [];
    for i := 0 to |l|
      invariant selected == Completed(l[..i])
    {
      PartitionStep(l, i);
      if l[i].checked {
        selected := selected + [l[i]];
      }
    }
    assert l[..|l|] == l;
    PartitionMembers(l);
  }

  /** The items in the order the config report numbers them: the default board, then each custom board in first-seen order. */
  function Listing(l: seq<Task>): seq<Task> {
    Blocks(l, BoardOrder(l))
  }

  /**
   * After sort-on-load the report numbers the items in ledger order, so
   * the n shown next to an item is the n that `get_numbers` turns into
   * that item's position.
   */
  lemma LoadedListingIsLedger(l: seq<Task>)
    ensures Listing(SortTasks(l).ledger) == SortTasks(l).ledger
    ensures Listing(l) == SortTasks(l).ledger
  {
    SortIsBlocks(l);
    SortIsBlocks(Sort(l));
    SortIdempotent(l);
  }

  /**
   * `print_tasks`: the per-board figures over the distinct boards, the
   * default board's header first and then the custom boards', the items
   * numbered in sort order, and a footer whose completed count is always
   * 0. The footer's open count subtracts the notes from total, the item
   * count taken when the ledger was loaded, which adding notes or
   * deleting items does not update.
   */
  method Report(l: seq<Task>, total: nat) returns (s: Summary)
    requires DefaultBoard in BoardNames(l)
    requires |Notes(l)| <= total
    ensures var names := Distinct(BoardNames(l));
            && |s.counts| == |names|
            && (forall k :: 0 <= k < |names| ==>
                  s.counts[k] == BoardCount(names[k], |Completed(OnBoard(l, names[k]))|, |OnBoard(l, names[k])|))
            && TotalOf(s.counts) == |l|
    ensures s.headers == [DefaultBoard] + Customs(l)
    ensures s.listing == Sort(l) && multiset(s.listing) == multiset(l)
    ensures s.completed == 0
    ensures s.notes == |Notes(l)| && s.open == total - s.notes
    ensures total == |l| ==> s.open == |l| - |Notes(l)|
  {
    var names := Distinct(BoardNames(l));
    var counts := CountBoards(l, names);
    TotalsCoverLedger(l, counts);
    var listing := Listing(l);
    SortIsBlocks(l);
    SortPermutation(l);
    var notes := CountNotes(listing);
    NotesOfPermutation(listing, l);
    DoneTasksWithoutNotes(l);
    return Summary(counts, BoardOrder(l), listing, 0, total - notes, notes);
  }
}

=== FILE: entity.dfy ===
/**
 * The entity model of the ledger: a task or note, the item equality the
 * source defines for it, the way `add` and `note` build a new item from
 * argument tokens, and what a mutating command leaves in the store.
 */
module Entity {
  import opened Text

  /** Creation instants are opaque: nothing in the ledger engine computes with them. */
  type Timestamp = int

  /** The reserved name of the default board. */
  const DefaultBoard: string := "Tasks"

  /**
   * One ledger entry. It has no identifier of its own: its address is its
   * current position in the ledger.
   */
  datatype Task = Task(item: string, checked: bool, boardName: string, note: bool, date: Timestamp)

  /** `PartialEq for Task`: only the item text takes part in equality. */
  predicate SameItem(a: Task, b: Task) {
    a.item == b.item
  }

  /** `Vec<Task>` equality built on SameItem: same length and pairwise SameItem. */
  predicate SameItems(a: seq<Task>, b: seq<Task>) {
    |a| == |b| && forall i :: 0 <= i < |a| ==> SameItem(a[i], b[i])
  }

  /** The item texts of a ledger, in order. */
  function Items(l: seq<Task>): (r: seq<string>)
    ensures |r| == |l|
  {
    if |l| == 0 then [] else [l[0].item] + Items(l[1..])
  }

  /**
   * Task equality compares the item text only, whatever the checked flag,
   * board, note flag and date, so ledger equality is exactly equality of
   * the item texts, position by position.
   */
  lemma {:induction false} SameItemsIffItems(a: seq<Task>, b: seq<Task>)
    ensures SameItems(a, b) <==> Items(a) == Items(b)
  {
    if |a| > 0 && |b| > 0 {
      SameItemsIffItems(a[1..], b[1..]);
      assert Items(a) == [a[0].item] + Items(a[1..]);
      assert Items(b) == [b[0].item] + Items(b[1..]);
      if SameItems(a, b) {
        assert SameItems(a[1..], b[1..]) by {
          forall i | 0 <= i < |a| - 1
            ensures SameItem(a[1..][i], b[1..][i])
          {
            assert SameItem(a[i + 1], b[i + 1]);
          }
        }
      }
      if Items(a) == [a[0].item] + Items(a[1..]) && Items(a) == Items(b) {
        assert Items(a)[0] == a[0].item && Items(b)[0] == b[0].item;
        assert Items(a[1..]) == Items(a)[1..] == Items(b)[1..] == Items(b[1..]);
        forall i | 0 <= i < |a|
          ensures SameItem(a[i], b[i])
        {
          if i > 0 {
            assert a[i] == a[1..][i - 1] && b[i] == b[1..][i - 1];
          }
        }
      }
    }
  }

  /**
   * The task `add` builds from its operand tokens: when the first token holds
   * a '!', that token minus every '!' names the board and the remaining
   * tokens form the text; otherwise the task goes to the default board and
   * every token is text. A new task is never checked and never a note.
   */
  function NewTask(tokens: seq<string>, date: Timestamp): (t: Task)
    requires |tokens| >= 1
    ensures !t.checked && !t.note && t.date == date
    ensures '!' !in t.boardName
  {
    if '!' in tokens[0] then Task(Join(tokens[1..]), false, RemoveBangs(tokens[0]), false, date)
    else Task(Join(tokens), false, DefaultBoard, false, date)
  }

  /** The note `note` builds: always on the default board, never checked. */
  function NewNote(tokens: seq<string>, date: Timestamp): (t: Task)
    ensures t.note && !t.checked && t.boardName == DefaultBoard && t.date == date
  {
    Task(Join(tokens), false, DefaultBoard, true, date)
  }

  /**
   * `!Work buy milk` files "buy milk" on board "Work": a marker `!b`
   * followed by space-free words gives back exactly b and those words.
   */
  lemma MarkedTaskRoundTrip(b: string, words: seq<string>, date: Timestamp)
    requires '!' !in b && |words| >= 1 && NoSpace(words)
    ensures NewTask(["!" + b] + words, date).boardName == b
    ensures Split(NewTask(["!" + b] + words, date).item) == words
  {
    var tokens := ["!" + b] + words;
    assert '!' in tokens[0] by { assert tokens[0][0] == '!'; }
    assert tokens[1..] == words;
    MarkerNamesBoard(b);
    SplitJoin(words);
  }

  /** Without a marker every word is text and the task lands on the default board. */
  lemma UnmarkedTaskRoundTrip(words: seq<string>, date: Timestamp)
    requires |words| >= 1 && NoSpace(words) && '!' !in words[0]
    ensures NewTask(words, date).boardName == DefaultBoard
    ensures Split(NewTask(words, date).item) == words
  {
    SplitJoin(words);
  }

  /** A note keeps every word it was given. */
  lemma NoteRoundTrip(words: seq<string>, date: Timestamp)
    requires |words| >= 1 && NoSpace(words)
    ensures Split(NewNote(words, date).item) == words
  {
    SplitJoin(words);
  }

  /** What a mutating command leaves in the active store. */
  datatype Outcome =
    | Aborted                      // validation failed: the store keeps its old ledger
    | Updated(ledger: seq<Task>)   // the store now holds `ledger`
    | Emptied                      // the store file is truncated to nothing

  /** The ledger the store holds after an outcome. */
  function Stored(o: Outcome, before: seq<Task>): seq<Task>
  {
    match o
    case Aborted => before
    case Updated(l) => l
    case Emptied => []
  }
}

=== FILE: partition.dfy ===
/**
 * Splitting a ledger into its checked and unchecked items, each kept in
 * ledger order: the archive selection of "clear completed".
 */
module Partition {
  import opened Entity

  /** The checked items, in ledger order. */
  function Completed(l: seq<Task>): (r: seq<Task>)
    ensures |r| <= |l|
  {
    if |l| == 0 then [] else (if l[0].checked then [l[0]] else []) + Completed(l[1..])
  }

  /** The unchecked items, in ledger order. */
  function Pending(l: seq<Task>): (r: seq<Task>)
    ensures |r| <= |l|
  {
    if |l| == 0 then [] else (if l[0].checked then [] else [l[0]]) + Pending(l[1..])
  }

  /** The archive part holds exactly the checked items, the kept part exactly the unchecked ones. */
  lemma {:induction false} PartitionMembers(l: seq<Task>)
    ensures forall t :: t in Completed(l) <==> t in l && t.checked
    ensures forall t :: t in Pending(l) <==> t in l && !t.checked
  {
    if |l| > 0 {
      PartitionMembers(l[1..]);
      assert l == [l[0]] + l[1..];
    }
  }

  /** Every item lands in exactly one part: lengths and contents add up. */
  lemma {:induction false} PartitionCovers(l: seq<Task>)
    ensures |Completed(l)| + |Pending(l)| == |l|
    ensures multiset(Completed(l)) + multiset(Pending(l)) == multiset(l)
  {
    if |l| > 0 {
      PartitionCovers(l[1..]);
    }
    forall t {
      PartitionCount(l, t);
    }
  }

  lemma {:induction false} PartitionCount(l: seq<Task>, t: Task)
    ensures multiset(Completed(l))[t] + multiset(Pending(l))[t] == multiset(l)[t]
  {
    if |l| > 0 {
      var h, rest := l[0], l[1..];
      PartitionCount(rest, t);
      assert l == [h] + rest;
      var c := if h.checked then [h] else [];
      var p := if h.checked then [] else [h];
      assert Completed(l) == c + Completed(rest);
      assert Pending(l) == p + Pending(rest);
      assert multiset(c)[t] + multiset(p)[t] == multiset([h])[t];
    }
  }

  /** Both parts keep ledger order: splitting a ledger splits each part the same way. */
  lemma PartitionOfConcat(a: seq<Task>, b: seq<Task>)
    ensures Completed(a + b) == Completed(a) + Completed(b)
    ensures Pending(a + b) == Pending(a) + Pending(b)
  {
    CompletedOfConcat(a, b);
    PendingOfConcat(a, b);
  }

  lemma {:induction false} CompletedOfConcat(a: seq<Task>, b: seq<Task>)
    ensures Completed(a + b) == Completed(a) + Completed(b)
  {
    if |a| == 0 {
      assert a + b == b;
    } else {
      var h, t := a[0], a[1..];
      assert a == [h] + t;
      assert a + b == [h] + (t + b);
      PartitionCons(h, t);
      PartitionCons(h, t + b);
      CompletedOfConcat(t, b);
      var c, x, y := if h.checked then [h] else [], Completed(t), Completed(b);
      assert c + (x + y) == (c + x) + y;
    }
  }

  lemma {:induction false} PendingOfConcat(a: seq<Task>, b: seq<Task>)
    ensures Pending(a + b) == Pending(a) + Pending(b)
  {
    if |a| == 0 {
      assert a + b == b;
    } else {
      var h, t := a[0], a[1..];
      assert a == [h] + t;
      assert a + b == [h] + (t + b);
      PartitionCons(h, t);
      PartitionCons(h, t + b);
      PendingOfConcat(t, b);
      var p, x, y := if h.checked then [] else [h], Pending(t), Pending(b);
      assert p + (x + y) == (p + x) + y;
    }
  }

  /** The head of a ledger goes to exactly one part, in front. */
  lemma PartitionCons(h: Task, t: seq<Task>)
    ensures Completed([h] + t) == (if h.checked then [h] else []) + Completed(t)
    ensures Pending([h] + t) == (if h.checked then [] else [h]) + Pending(t)
  {
    assert ([h] + t)[1..] == t;
  }

  /** One more ledger item extends exactly one of the two parts. */
  lemma PartitionStep(l: seq<Task>, i: nat)
    requires i < |l|
    ensures Completed(l[..i + 1]) == Completed(l[..i]) + (if l[i].checked then [l[i]] else [])
    ensures Pending(l[..i + 1]) == Pending(l[..i]) + (if l[i].checked then [] else [l[i]])
  {
    assert l[..i + 1] == l[..i] + [l[i]];
    PartitionOfConcat(l[..i], [l[i]]);
    assert [l[i]][1..] == [];
  }

  /** Clearing twice archives nothing the second time and keeps the rest as is. */
  lemma {:induction false} ClearAgainIsNoop(l: seq<Task>)
    ensures Completed(Pending(l)) == []
    ensures Pending(Pending(l)) == Pending(l)
  {
    if |l| > 0 {
      ClearAgainIsNoop(l[1..]);
      var p := if l[0].checked then [] else [l[0]];
      PartitionOfConcat(p, Pending(l[1..]));
    }
  }
}

=== FILE: positions.dfy ===
/**
 * Position-addressed edits of a ledger, shared by both lineages: flipping
 * the checked flag at a position, and deleting positions with the
 * compaction loop that reinterprets each later index against the
 * already-shrunk ledger.
 */
module Positions {
  import opened Maybe
  import opened Entity

  /** The ledger with the checked flag at zero-based position i flipped. */
  function Flip(l: seq<Task>, i: nat): (r: seq<Task>)
    requires i < |l|
    ensures |r| == |l|
  {
    l[i := l[i].(checked := !l[i].checked)]
  }

  /**
   * `after` is `before` with the checked flag at zero-based position i
   * flipped once for every occurrence of `i + base` in `hits`, and nothing
   * else changed.
   */
  predicate FlippedBy(before: seq<Task>, after: seq<Task>, hits: multiset<nat>, base: nat)
  {
    && |after| == |before|
    && forall i :: 0 <= i < |before| ==>
         after[i] == before[i].(checked := before[i].checked != (hits[i + base] % 2 == 1))
  }

  /** Flipping by the same hits twice gives the original ledger back. */
  lemma FlipTwiceRestores(a: seq<Task>, b: seq<Task>, c: seq<Task>, hits: multiset<nat>, base: nat)
    requires FlippedBy(a, b, hits, base) && FlippedBy(b, c, hits, base)
    ensures c == a
  {
    assert forall i :: 0 <= i < |a| ==> c[i] == a[i];
  }

  /**
   * One flip at position p - base followed by flips by `rest` is a flip by
   * p together with `rest`.
   */
  lemma FlipThen(l: seq<Task>, p: nat, rest: seq<nat>, r: seq<Task>, base: nat)
    requires base <= p && p - base < |l|
    requires FlippedBy(Flip(l, p - base), r, multiset(rest), base)
    ensures FlippedBy(l, r, multiset([p] + rest), base)
  {
    forall i | 0 <= i < |l|
      ensures r[i] == l[i].(checked := l[i].checked != (multiset([p] + rest)[i + base] % 2 == 1))
    {
      assert multiset([p] + rest)[i + base] == multiset(rest)[i + base] + (if i + base == p then 1 else 0);
    }
  }

  predicate StrictlyAscending(ps: seq<nat>) {
    forall i, j :: 0 <= i < j < |ps| ==> ps[i] < ps[j]
  }

  predicate Below(ps: seq<nat>, n: nat) {
    forall i :: 0 <= i < |ps| ==> ps[i] < n
  }

  /**
   * Reference meaning of a deletion: the items whose zero-based positions
   * are not in `gone`, in ledger order.
   */
  function Survivors(l: seq<Task>, gone: set<nat>): (r: seq<Task>)
    ensures |r| <= |l|
  {
    if |l| == 0 then []
    else Survivors(l[..|l| - 1], gone) + (if |l| - 1 in gone then [] else [l[|l| - 1]])
  }

  lemma {:induction false} SurvivorsOfUntouched(l: seq<Task>, gone: set<nat>)
    requires forall i :: 0 <= i < |l| ==> i !in gone
    ensures Survivors(l, gone) == l
  {
    if |l| > 0 {
      SurvivorsOfUntouched(l[..|l| - 1], gone);
    }
  }

  lemma {:induction false} SurvivorsAgree(l: seq<Task>, a: set<nat>, b: set<nat>)
    requires forall i :: 0 <= i < |l| ==> (i in a <==> i in b)
    ensures Survivors(l, a) == Survivors(l, b)
  {
    if |l| > 0 {
      SurvivorsAgree(l[..|l| - 1], a, b);
    }
  }

  /** Nothing at or past position n is gone, so the tail from n survives whole. */
  lemma {:induction false} SurvivorsTail(l: seq<Task>, gone: set<nat>, n: nat)
    requires n <= |l|
    requires forall g :: g in gone ==> g < n
    ensures Survivors(l, gone) == Survivors(l[..n], gone) + l[n..]
    decreases |l| - n
  {
    if n < |l| {
      var init := l[..|l| - 1];
      SurvivorsTail(init, gone, n);
      assert init[..n] == l[..n];
      assert init[n..] + [l[|l| - 1]] == l[n..];
    } else {
      assert l[..n] == l;
    }
  }

  /** The set of positions a list of ids names. */
  function IdSet(ids: seq<nat>): set<nat> {
    set i | i in ids
  }

  /** Removing a set of positions below |l| shortens the ledger by exactly their number. */
  lemma {:induction false} SurvivorsLength(l: seq<Task>, gone: set<nat>)
    requires forall g :: g in gone ==> g < |l|
    ensures |gone| <= |l| && |Survivors(l, gone)| == |l| - |gone|
  {
    if |l| == 0 {
      assert gone == {} by {
        forall g | g in gone ensures false { }
      }
    } else {
      var last := |l| - 1;
      var init := l[..last];
      var rest := gone - {last};
      SurvivorsLength(init, rest);
      SurvivorsAgree(init, gone, rest);
      if last in gone {
        assert gone == rest + {last};
      } else {
        assert rest == gone;
      }
    }
  }

  /**
   * One step of the loop when every earlier removal lies below the next id:
   * after |gone| removals the item at id sits at id - |gone|, and removing it
   * there removes id as well.
   */
  lemma RemoveNext(l: seq<Task>, gone: set<nat>, id: nat)
    requires id < |l|
    requires forall g :: g in gone ==> g < id
    ensures |gone| <= id && id - |gone| < |Survivors(l, gone)|
    ensures RemoveAt(Survivors(l, gone), id - |gone|) == Survivors(l, gone + {id})
  {
    SurvivorsLength(l[..id], gone);
    var w := Survivors(l[..id], gone);
    SurvivorsTail(l, gone, id);
    RemoveAtJoin(w, l[id..]);
    assert l[id..][1..] == l[id + 1..];
    SurvivorsSkip(l, gone, id);
  }

  /** Also removing id, above every removed position, leaves the prefix before it and the tail after it. */
  lemma SurvivorsSkip(l: seq<Task>, gone: set<nat>, id: nat)
    requires id < |l|
    requires forall g :: g in gone ==> g < id
    ensures Survivors(l, gone + {id}) == Survivors(l[..id], gone) + l[id + 1..]
  {
    var more := gone + {id};
    SurvivorsTail(l, more, id + 1);
    var front := l[..id + 1];
    assert front[..id] == l[..id];
    assert Survivors(front, more) == Survivors(l[..id], more);
    SurvivorsAgree(l[..id], more, gone);
  }

  /** Removing at the seam of a concatenation drops the head of the right part. */
  lemma RemoveAtJoin(a: seq<Task>, b: seq<Task>)
    requires |b| > 0
    ensures RemoveAt(a + b, |a|) == a + b[1..]
  {
    assert (a + b)[..|a|] == a;
    assert (a + b)[|a| + 1..] == b[1..];
  }

  /** The sequence with the element at index i removed (`Vec::remove`). */
  function RemoveAt(s: seq<Task>, i: nat): (r: seq<Task>)
    requires i < |s|
    ensures |r| == |s| - 1
  {
    s[..i] + s[i + 1..]
  }

  /** How many of the ids lie below size: the removals the loop makes. */
  function Hits(ids: seq<nat>, size: nat): (n: nat)
    ensures n <= |ids|
  {
    if |ids| == 0 then 0 else (if ids[0] < size then 1 else 0) + Hits(ids[1..], size)
  }

  /**
   * The loop does not underflow: every id below the original size that it
   * reaches is at least the number of removals already made, so that
   * `id - removed` is a valid usize.
   */
  predicate CompactDefined(ids: seq<nat>, size: nat, removed: nat)
    decreases |ids|
  {
    || |ids| == 0
    || (if ids[0] < size then removed <= ids[0] && CompactDefined(ids[1..], size, removed + 1)
        else ids[0] == 0 ==> CompactDefined(ids[1..], size, removed))
  }

  /**
   * The deletion loop of both lineages, as written. `cur` is the ledger so
   * far, `removed` the removals so far and `size` the original length.
   * An id below size is removed at `id - removed`; an id at or past size
   * aborts unless it is 0 (possible only on an empty ledger), which is
   * skipped.
   */
  function Compact(cur: seq<Task>, ids: seq<nat>, size: nat, removed: nat): (r: Option<seq<Task>>)
    requires |cur| + removed == size
    requires CompactDefined(ids, size, removed)
    ensures r.None? <==> exists k :: 0 <= k < |ids| && ids[k] >= size && ids[k] != 0
    ensures r.Some? ==> |r.value| + Hits(ids, size) == |cur|
    decreases |ids|
  {
    if |ids| == 0 then Some(cur)
    else if ids[0] < size then
      var i := ids[0] - removed;
      var r := Compact(RemoveAt(cur, i), ids[1..], size, removed + 1);
      assert forall k :: 1 <= k < |ids| ==> ids[k] == ids[1..][k - 1];
      r
    else if ids[0] != 0 then None
    else
      var r := Compact(cur, ids[1..], size, removed);
      assert forall k :: 1 <= k < |ids| ==> ids[k] == ids[1..][k - 1];
      r
  }

  /**
   * The deletion loop as an in-place method over a shrinking ledger. For
   * strictly ascending ids below the length, subtracting the removals made
   * so far always lands on the requested item, so exactly those positions
   * go.
   */
  method DeleteLoop(l: seq<Task>, ids: seq<nat>) returns (r: Option<seq<Task>>)
    requires CompactDefined(ids, |l|, 0)
    ensures r == Compact(l, ids, |l|, 0)
    ensures r.None? <==> exists k :: 0 <= k < |ids| && ids[k] >= |l| && ids[k] != 0
    ensures StrictlyAscending(ids) && Below(ids, |l|) ==> r == Some(Survivors(l, IdSet(ids)))
  {
    var cur := l;
    var removed := 0;
    var k := 0;
    while k < |ids|
      invariant 0 <= k <= |ids|
      invariant |cur| + removed == |l|
      invariant CompactDefined(ids[k..], |l|, removed)
      invariant Compact(l, ids, |l|, 0) == Compact(cur, ids[k..], |l|, removed)
    {
      var id := ids[k];
      assert ids[k..][1..] == ids[k + 1..];
      if id < |l| {
        cur := RemoveAt(cur, id - removed);
        removed := removed + 1;
      } else if id != 0 {
        return None;
      }
      k := k + 1;
    }
    assert ids[k..] == [];
    if StrictlyAscending(ids) && Below(ids, |l|) {
      AscendingDeletes(l, ids);
    }
    return Some(cur);
  }

  /**
   * On strictly ascending ids below the length the loop never underflows
   * and deletes exactly the requested positions, leaving the other items in
   * ledger order.
   */
  lemma AscendingDeletes(l: seq<Task>, ids: seq<nat>)
    requires StrictlyAscending(ids) && Below(ids, |l|)
    ensures CompactDefined(ids, |l|, 0)
    ensures Compact(l, ids, |l|, 0) == Some(Survivors(l, IdSet(ids)))
  {
    SurvivorsOfUntouched(l, {});
    RisingOf(ids, |l|);
    CompactAscending(l, ids, {}, l);
    assert {} + IdSet(ids) == IdSet(ids);
  }

  /** Strictly ascending and below n, stated one step at a time. */
  predicate Rising(ps: seq<nat>, n: nat)
    decreases |ps|
  {
    |ps| == 0 || (ps[0] < n && (|ps| == 1 || ps[0] < ps[1]) && Rising(ps[1..], n))
  }

  lemma {:induction false} RisingOf(ps: seq<nat>, n: nat)
    requires StrictlyAscending(ps) && Below(ps, n)
    ensures Rising(ps, n)
    decreases |ps|
  {
    if |ps| > 0 {
      RisingOf(ps[1..], n);
    }
  }

  /** Every position in `gone` lies below n and below the first of ps. */
  predicate Beneath(gone: set<nat>, ps: seq<nat>, n: nat) {
    forall g :: g in gone ==> g < n && (|ps| == 0 || g < ps[0])
  }

  /**
   * On strictly ascending ids below the length, the loop resumed after the
   * positions `gone` were removed deletes exactly the requested positions
   * too: subtracting the removals so far always lands on the requested item.
   */
  lemma {:induction false} CompactAscending(l: seq<Task>, ps: seq<nat>, gone: set<nat>, cur: seq<Task>)
    requires Rising(ps, |l|) && Beneath(gone, ps, |l|)
    requires cur == Survivors(l, gone)
    ensures |cur| + |gone| == |l| && CompactDefined(ps, |l|, |gone|)
    ensures Compact(cur, ps, |l|, |gone|) == Some(Survivors(l, gone + IdSet(ps)))
    decreases |ps|
  {
    if |ps| == 0 {
      SurvivorsLength(l, gone);
      assert gone + IdSet(ps) == gone;
    } else {
      var p := ps[0];
      RemoveNext(l, gone, p);
      AscendingNext(ps, gone, |l|);
      CompactAscending(l, ps[1..], gone + {p}, RemoveAt(cur, p - |gone|));
      CompactStep(cur, ps, |gone|, |l|);
    }
  }

  /** Removing the first of the ascending ids keeps the rest above everything removed. */
  lemma AscendingNext(ps: seq<nat>, gone: set<nat>, size: nat)
    requires Rising(ps, size) && |ps| > 0 && Beneath(gone, ps, size)
    ensures Rising(ps[1..], size) && Beneath(gone + {ps[0]}, ps[1..], size)
    ensures |gone + {ps[0]}| == |gone| + 1
    ensures gone + {ps[0]} + IdSet(ps[1..]) == gone + IdSet(ps)
  {
    assert ps[0] !in gone;
    assert ps == [ps[0]] + ps[1..];
  }

  /** One turn of the loop on an id inside the original length: remove at `id - removed`, then go on. */
  lemma CompactStep(cur: seq<Task>, ps: seq<nat>, k: nat, size: nat)
    requires |ps| > 0 && k <= ps[0] < size && |cur| + k == size
    requires CompactDefined(ps[1..], size, k + 1)
    ensures CompactDefined(ps, size, k)
    ensures Compact(cur, ps, size, k) == Compact(RemoveAt(cur, ps[0] - k), ps[1..], size, k + 1)
  {
  }

  /** The zero-based positions below n that occur in ids, ascending and without repeats. */
  function Normalize(ids: seq<nat>, n: nat): (r: seq<nat>)
    ensures StrictlyAscending(r) && Below(r, n)
    ensures forall p :: p in r <==> p in ids && p < n
  {
    if n == 0 then [] else Normalize(ids, n - 1) + (if n - 1 in ids then [n - 1] else [])
  }

  /**
   * Deletion as evidently intended: validate the ids exactly as the loop
   * does, then remove the requested positions in ascending order without
   * repeats, so that each id names the item the user saw at that position.
   */
  method DeleteNormalized(l: seq<Task>, ids: seq<nat>) returns (r: Option<seq<Task>>)
    ensures r.None? <==> exists k :: 0 <= k < |ids| && ids[k] >= |l| && ids[k] != 0
    ensures r.Some? ==> r.value == Survivors(l, IdSet(ids))
  {
    var ps := Normalize(ids, |l|);
    if exists k :: 0 <= k < |ids| && ids[k] >= |l| && ids[k] != 0 {
      return None;
    }
    AscendingDeletes(l, ps);
    r := DeleteLoop(l, ps);
    SurvivorsAgree(l, IdSet(ps), IdSet(ids));
  }

  /**
   * As written, ids out of ascending order remove the wrong items: asking
   * for zero-based positions 2 then 1 of [a, b, c] removes c and then,
   * from the shrunk [a, b], the item at 1 - 1 = 0, leaving [b] where [a]
   * was meant.
   */
  lemma DescendingIdsRemoveWrongItems(a: Task, b: Task, c: Task)
    ensures CompactDefined([2, 1], 3, 0)
    ensures Compact([a, b, c], [2, 1], 3, 0) == Some([b])
    ensures Survivors([a, b, c], IdSet([2, 1])) == [a]
  {
    var l := [a, b, c];
    assert RemoveAt(l, 2) == [a, b];
    assert RemoveAt([a, b], 0) == [b];
    assert [2, 1][1..] == [1] && [1][1..] == [];
    assert Compact([b], [], 3, 2) == Some([b]);
    assert Compact([a, b], [1], 3, 1) == Some([b]);
    assert IdSet([2, 1]) == {1, 2};
    assert l[..2] == [a, b] && [a, b][..1] == [a] && [a][..0] == [];
    assert Survivors([a], {1, 2}) == [a];
    assert Survivors([a, b], {1, 2}) == [a];
  }

  /**
   * As written, a repeated id removes a second, different item: position 1
   * of [a, b, c] twice removes b and then, at 1 - 1 = 0, a as well.
   */
  lemma RepeatedIdRemovesTwice(a: Task, b: Task, c: Task)
    ensures CompactDefined([1, 1], 3, 0)
    ensures Compact([a, b, c], [1, 1], 3, 0) == Some([c])
    ensures Survivors([a, b, c], IdSet([1, 1])) == [a, c]
  {
    var l := [a, b, c];
    assert RemoveAt(l, 1) == [a, c];
    assert RemoveAt([a, c], 0) == [c];
    assert [1, 1][1..] == [1] && [1][1..] == [];
    assert Compact([c], [], 3, 2) == Some([c]);
    assert Compact([a, c], [1], 3, 1) == Some([c]);
    assert IdSet([1, 1]) == {1};
    assert l[..2] == [a, b] && [a, b][..1] == [a] && [a][..0] == [];
    assert Survivors([a], {1}) == [a];
    assert Survivors([a, b], {1}) == [a];
  }
}

=== FILE: resolve.dfy ===
/**
 * Identifier resolution: turning argument tokens into zero-based ledger
 * positions. `get_id` (the free-function lineage) reads `A - B` as three
 * tokens or a list of numbers and rejects the first token that is not one;
 * `get_numbers` (the `Config` lineage) looks for `digits-digits` inside one
 * token and otherwise keeps every token that is a nonzero number, silently
 * skipping the rest.
 */
module Resolve {
  import opened Maybe
  import opened Text

  /** The positions lo, lo + 1, ..., hi - 1, ascending; empty when lo >= hi. */
  function Span(lo: nat, hi: nat): (r: seq<nat>)
    ensures |r| == if lo <= hi then hi - lo else 0
    ensures forall i :: 0 <= i < |r| ==> r[i] == lo + i
    decreases hi - lo
  {
    if lo >= hi then [] else [lo] + Span(lo + 1, hi)
  }

  /** The decimal form of each number. */
  function Decimals(ns: seq<nat>): (r: seq<string>)
    ensures |r| == |ns|
  {
    if |ns| == 0 then [] else [Decimal(ns[0])] + Decimals(ns[1..])
  }

  lemma {:induction false} DecimalsAt(ns: seq<nat>)
    ensures forall i :: 0 <= i < |ns| ==> Decimals(ns)[i] == Decimal(ns[i])
  {
    if |ns| > 0 {
      DecimalsAt(ns[1..]);
      forall i | 1 <= i < |ns|
        ensures Decimals(ns)[i] == Decimal(ns[i])
      {
        assert Decimals(ns)[i] == Decimals(ns[1..])[i - 1];
      }
    }
  }

  /** What `get_id` leaves behind: the positions it pushed, or the token it rejected. */
  datatype Resolution = Ids(ids: seq<nat>) | NotANumber(token: string)

  /** `get_id`'s range form: exactly three tokens with a lone "-" in the middle. */
  predicate RangeForm(args: seq<string>) {
    |args| == 3 && args[1] == "-"
  }

  /** List mode never subtracts from 0: every number read before the first non-number is at least 1. */
  predicate ListDefined(args: seq<string>) {
    |args| == 0 ||
    match ParseUsize(args[0])
    case None => true
    case Some(v) => v >= 1 && ListDefined(args[1..])
  }

  /**
   * `get_id` never subtracts from 0: in range form a non-empty range starts
   * at 1 or more, in list form every number read is at least 1.
   */
  predicate GetIdDefined(args: seq<string>) {
    if RangeForm(args) then
      match (ParseUsize(args[0]), ParseUsize(args[2]))
      case (Some(x), Some(y)) => x <= y ==> x >= 1
      case _ => true
    else ListDefined(args)
  }

  /**
   * `get_id`'s list mode: one zero-based position per token, in input
   * order, until a token that is not a number rejects the whole list.
   */
  function ListIds(args: seq<string>): (r: Resolution)
    requires ListDefined(args)
    ensures ListResolved(args, r)
  {
    if |args| == 0 then Ids([])
    else
      match ParseUsize(args[0])
      case None => NotANumber(args[0])
      case Some(v) =>
        var rest := ListIds(args[1..]);
        var r := if rest.NotANumber? then rest else Ids([v - 1] + rest.ids);
        ListIdsStep(args, v, rest, r);
        r
  }

  /**
   * What list mode promises for `r` on `args`: it rejects exactly when some
   * token is not a number, naming the first such token; otherwise it holds
   * one zero-based position per token, in order.
   */
  predicate ListResolved(args: seq<string>, r: Resolution) {
    && (r.NotANumber? <==> exists k :: 0 <= k < |args| && ParseUsize(args[k]).None?)
    && (r.NotANumber? ==> exists k :: 0 <= k < |args| && ParseUsize(args[k]).None? && r.token == args[k] &&
                            forall m :: 0 <= m < k ==> ParseUsize(args[m]).Some?)
    && (r.Ids? ==> |r.ids| == |args| && forall i :: 0 <= i < |args| ==> ParseUsize(args[i]) == Some(r.ids[i] + 1))
  }

  /** A leading number followed by a resolved tail resolves the whole list. */
  lemma ListIdsStep(args: seq<string>, v: nat, rest: Resolution, r: Resolution)
    requires |args| > 0 && ParseUsize(args[0]) == Some(v) && v >= 1
    requires ListResolved(args[1..], rest)
    requires r == if rest.NotANumber? then rest else Ids([v - 1] + rest.ids)
    ensures ListResolved(args, r)
  {
    if rest.NotANumber? {
      RejectedStep(args, rest.token);
    } else {
      AcceptedStep(args, v, rest.ids);
    }
  }

  lemma RejectedStep(args: seq<string>, token: string)
    requires |args| > 0 && ParseUsize(args[0]).Some?
    requires exists k :: 0 <= k < |args[1..]| && ParseUsize(args[1..][k]).None? && token == args[1..][k] &&
                         forall m :: 0 <= m < k ==> ParseUsize(args[1..][m]).Some?
    ensures exists k :: 0 <= k < |args| && ParseUsize(args[k]).None?
    ensures exists k :: 0 <= k < |args| && ParseUsize(args[k]).None? && token == args[k] &&
                        forall m :: 0 <= m < k ==> ParseUsize(args[m]).Some?
  {
    var k :| 0 <= k < |args[1..]| && ParseUsize(args[1..][k]).None? && token == args[1..][k] &&
             forall m :: 0 <= m < k ==> ParseUsize(args[1..][m]).Some?;
    assert args[k + 1] == args[1..][k];
    forall m | 1 <= m < k + 1
      ensures ParseUsize(args[m]).Some?
    {
      assert args[m] == args[1..][m - 1];
    }
  }

  lemma AcceptedStep(args: seq<string>, v: nat, ids: seq<nat>)
    requires |args| > 0 && ParseUsize(args[0]) == Some(v) && v >= 1
    requires !exists k :: 0 <= k < |args[1..]| && ParseUsize(args[1..][k]).None?
    requires |ids| == |args[1..]| && forall i :: 0 <= i < |args[1..]| ==> ParseUsize(args[1..][i]) == Some(ids[i] + 1)
    ensures !exists k :: 0 <= k < |args| && ParseUsize(args[k]).None?
    ensures forall i :: 0 <= i < |args| ==> ParseUsize(args[i]) == Some(([v - 1] + ids)[i] + 1)
  {
    forall i | 1 <= i < |args|
      ensures ParseUsize(args[i]) == Some(([v - 1] + ids)[i] + 1)
    {
      assert args[i] == args[1..][i - 1];
    }
  }

  /**
   * `get_id`: in range form, the zero-based positions A - 1 .. B - 1 when
   * both ends are numbers and A <= B, and nothing otherwise (still a
   * success); in any other form, list mode.
   */
  function GetId(args: seq<string>): (r: Resolution)
    requires GetIdDefined(args)
    ensures RangeForm(args) ==> r.Ids?
    ensures RangeForm(args) && (ParseUsize(args[0]).None? || ParseUsize(args[2]).None?) ==> r == Ids([])
    ensures RangeForm(args) && ParseUsize(args[0]).Some? && ParseUsize(args[2]).Some? ==>
              var x, y := ParseUsize(args[0]).value, ParseUsize(args[2]).value;
              |r.ids| == (if x <= y then y - x + 1 else 0) &&
              forall i :: 0 <= i < |r.ids| ==> r.ids[i] == x - 1 + i
    ensures !RangeForm(args) ==> r == ListIds(args)
  {
    if RangeForm(args) then
      match (ParseUsize(args[0]), ParseUsize(args[2]))
      case (Some(x), Some(y)) => if x <= y then Ids(Span(x - 1, y)) else Ids([])
      case _ => Ids([])
    else ListIds(args)
  }

  /** Typing positions as numbers gives back the zero-based positions, in order. */
  lemma GetIdOfDecimals(ns: seq<nat>)
    requires forall i :: 0 <= i < |ns| ==> 1 <= ns[i] <= UsizeMax
    ensures GetIdDefined(Decimals(ns))
    ensures GetId(Decimals(ns)).Ids?
    ensures |GetId(Decimals(ns)).ids| == |ns|
    ensures forall i :: 0 <= i < |ns| ==> GetId(Decimals(ns)).ids[i] + 1 == ns[i]
  {
    var args := Decimals(ns);
    DecimalsAt(ns);
    forall i | 0 <= i < |ns|
      ensures ParseUsize(args[i]) == Some(ns[i])
    {
      ParseDecimal(ns[i]);
    }
    if |args| == 3 {
      assert args[1] != "-" by {
        assert IsDigit(args[1][0]);
      }
    }
    DecimalsListDefined(ns);
  }

  lemma {:induction false} DecimalsListDefined(ns: seq<nat>)
    requires forall i :: 0 <= i < |ns| ==> 1 <= ns[i] <= UsizeMax
    ensures ListDefined(Decimals(ns))
  {
    if |ns| > 0 {
      ParseDecimal(ns[0]);
      DecimalsListDefined(ns[1..]);
    }
  }

  /** Typing `A - B` gives back the zero-based positions A - 1 through B - 1. */
  lemma GetIdOfRange(a: nat, b: nat)
    requires 1 <= a && a <= UsizeMax && b <= UsizeMax
    ensures GetIdDefined([Decimal(a), "-", Decimal(b)])
    ensures GetId([Decimal(a), "-", Decimal(b)]) == Ids(Span(a - 1, b))
  {
    ParseDecimal(a);
    ParseDecimal(b);
  }

  /** The length of the run of ASCII digits at the start of s. */
  function DigitRun(s: string): (n: nat)
    ensures n <= |s| && AllDigits(s[..n])
    ensures n < |s| ==> !IsDigit(s[n])
  {
    if |s| == 0 || !IsDigit(s[0]) then 0
    else
      var n := DigitRun(s[1..]);
      assert s[..n + 1] == [s[0]] + s[1..][..n];
      1 + n
  }

  /** A run of at least a digits at the start of t makes DigitRun reach a. */
  lemma DigitRunAtLeast(t: string, a: nat)
    requires a <= |t| && AllDigits(t[..a])
    ensures DigitRun(t) >= a
  {
    var n := DigitRun(t);
    assert forall k :: 0 <= k < a ==> t[k] == t[..a][k];
  }

  /** A digit run of length a followed by a non-digit is exactly what DigitRun measures. */
  lemma DigitRunExact(t: string, a: nat)
    requires a < |t| && AllDigits(t[..a]) && !IsDigit(t[a])
    ensures DigitRun(t) == a
  {
    var n := DigitRun(t);
    DigitRunAtLeast(t, a);
    assert forall k :: 0 <= k < n ==> t[k] == t[..n][k];
  }

  /** The two capture groups of `(?P<first>\d+)-(?P<last>\d+)`. */
  datatype Captures = Captures(first: string, last: string)

  /**
   * The range pattern occurs at position p with a first group of a digits
   * and a last group of b digits.
   */
  predicate RangeAt(s: string, p: nat, a: nat, b: nat) {
    && p + a + 1 + b <= |s| && a >= 1 && b >= 1
    && AllDigits(s[p..p + a]) && s[p + a] == '-' && AllDigits(s[p + a + 1..p + a + 1 + b])
  }

  /** Any occurrence at p uses the whole first digit run and part of the second. */
  lemma RangeAtRuns(s: string, p: nat)
    requires p <= |s|
    ensures forall a: nat, b: nat :: RangeAt(s, p, a, b) ==>
              DigitRun(s[p..]) == a && DigitRun(s[p + a + 1..]) >= b
  {
    forall a: nat, b: nat | RangeAt(s, p, a, b)
      ensures DigitRun(s[p..]) == a && DigitRun(s[p + a + 1..]) >= b
    {
      assert s[p..][..a] == s[p..p + a];
      DigitRunExact(s[p..], a);
      assert s[p + a + 1..][..b] == s[p + a + 1..p + a + 1 + b];
      DigitRunAtLeast(s[p + a + 1..], b);
    }
  }

  /**
   * The match of the range pattern that starts at position p: the longest
   * digit run there, a '-', and the longest digit run after it.
   */
  function MatchAt(s: string, p: nat): (r: Option<Captures>)
    requires p <= |s|
    ensures r.Some? ==>
              && |r.value.first| > 0 && AllDigits(r.value.first)
              && |r.value.last| > 0 && AllDigits(r.value.last)
              && p + |r.value.first| + 1 + |r.value.last| <= |s|
              && s[p..p + |r.value.first| + 1 + |r.value.last|] == r.value.first + "-" + r.value.last
  {
    var a := DigitRun(s[p..]);
    var q := p + a;
    if a == 0 || q >= |s| || s[q] != '-' then None
    else
      var b := DigitRun(s[q + 1..]);
      if b == 0 then None
      else
        var first, last := s[p..q], s[q + 1..q + 1 + b];
        assert first == s[p..][..a];
        assert last == s[q + 1..][..b];
        assert s[p..q + 1 + b] == first + "-" + last;
        Some(Captures(first, last))
  }

  /** A match is an occurrence whose second digit run cannot be extended. */
  lemma MatchAtLongest(s: string, p: nat)
    requires p <= |s| && MatchAt(s, p).Some?
    ensures var c := MatchAt(s, p).value;
            && RangeAt(s, p, |c.first|, |c.last|)
            && var e := p + |c.first| + 1 + |c.last|;
               e == |s| || !IsDigit(s[e])
  {
    var a := DigitRun(s[p..]);
    var b := DigitRun(s[p + a + 1..]);
    assert s[p..p + a] == s[p..][..a];
    assert s[p + a + 1..p + a + 1 + b] == s[p + a + 1..][..b];
    assert p + a + 1 + b < |s| ==> s[p + a + 1 + b] == s[p + a + 1..][b];
  }

  /** The pattern finds a match at p exactly when it occurs there at all. */
  lemma MatchAtComplete(s: string, p: nat)
    requires p <= |s|
    ensures MatchAt(s, p).None? <==> forall a: nat, b: nat :: !RangeAt(s, p, a, b)
  {
    RangeAtRuns(s, p);
    if MatchAt(s, p).Some? {
      MatchAtLongest(s, p);
    }
  }

  /** The leftmost match at or after position p. */
  function Scan(s: string, p: nat): (r: Option<Captures>)
    requires p <= |s|
    ensures r.None? <==> forall q :: p <= q < |s| ==> MatchAt(s, q).None?
    ensures r.Some? ==> exists q :: p <= q < |s| && MatchAt(s, q) == r &&
                          forall q' :: p <= q' < q ==> MatchAt(s, q').None?
    decreases |s| - p
  {
    if p == |s| then None
    else if MatchAt(s, p).Some? then MatchAt(s, p)
    else Scan(s, p + 1)
  }

  /** `Regex::captures`: the leftmost match of the range pattern anywhere in s. */
  function FindRange(s: string): Option<Captures> {
    Scan(s, 0)
  }

  /** The search comes back empty exactly when the range pattern occurs nowhere in s. */
  lemma FindRangeComplete(s: string)
    ensures FindRange(s).None? <==> forall q: nat, a: nat, b: nat :: q < |s| ==> !RangeAt(s, q, a, b)
  {
    if FindRange(s).None? {
      forall q: nat, a: nat, b: nat | q < |s|
        ensures !RangeAt(s, q, a, b)
      {
        MatchAtComplete(s, q);
      }
    } else {
      var q :| 0 <= q < |s| && MatchAt(s, q) == FindRange(s);
      MatchAtLongest(s, q);
    }
  }

  /** The token `get_numbers` inspects for a range: the only one, or the second. */
  function Inspected(args: seq<string>): Option<string> {
    if |args| == 1 then Some(args[0])
    else if |args| >= 2 then Some(args[1])
    else None
  }

  function RangeCapture(args: seq<string>): Option<Captures> {
    match Inspected(args)
    case Some(tok) => FindRange(tok)
    case None => None
  }

  /**
   * `get_numbers` does not panic: captured numbers fit in a usize and a
   * non-empty range starts at 1 or more.
   */
  predicate GetNumbersDefined(args: seq<string>) {
    match RangeCapture(args)
    case None => true
    case Some(c) =>
      match (ParseUsize(c.first), ParseUsize(c.last))
      case (Some(x), Some(y)) => x <= y ==> x >= 1
      case _ => false
  }

  /** List mode of `get_numbers`: every token that is a nonzero number, minus one, in input order. */
  function ListNumbers(args: seq<string>): (r: seq<nat>)
    ensures |r| <= |args|
  {
    if |args| == 0 then [] else TokenId(args[0]) + ListNumbers(args[1..])
  }

  /** What one token contributes in list mode: its number minus one, if it is a nonzero number. */
  function TokenId(t: string): (r: seq<nat>)
    ensures |r| <= 1
  {
    match ParseUsize(t)
    case Some(v) => if v != 0 then [v - 1] else []
    case None => []
  }

  /** A single token yields its number minus one when that number is at least 1, and nothing otherwise. */
  lemma ListNumbersOfOne(t: string)
    ensures ParseUsize(t).Some? && ParseUsize(t).value >= 1 ==> ListNumbers([t]) == [ParseUsize(t).value - 1]
    ensures ParseUsize(t).None? || ParseUsize(t).value == 0 ==> ListNumbers([t]) == []
  {
    assert [t][1..] == [];
  }

  /** List mode handles tokens one at a time: the ids of a + b are those of a, then those of b. */
  lemma {:induction false} ListNumbersOfConcat(a: seq<string>, b: seq<string>)
    ensures ListNumbers(a + b) == ListNumbers(a) + ListNumbers(b)
    decreases |a|
  {
    if |a| == 0 {
      assert a + b == b;
    } else {
      assert (a + b)[0] == a[0];
      assert (a + b)[1..] == a[1..] + b;
      ListNumbersOfConcat(a[1..], b);
      assert ListNumbers(a + b) == TokenId(a[0]) + (ListNumbers(a[1..]) + ListNumbers(b));
    }
  }

  /** Some token of args is the number x + 1. */
  predicate Names(args: seq<string>, x: nat) {
    exists k :: 0 <= k < |args| && ParseUsize(args[k]) == Some(x + 1)
  }

  /** A position comes out exactly when some token is that position plus one. */
  lemma {:induction false} ListNumbersMembers(args: seq<string>)
    ensures forall x :: x in ListNumbers(args) <==> Names(args, x)
  {
    forall x {
      ListNumbersMember(args, x);
    }
  }

  lemma ListNumbersMember(args: seq<string>, x: nat)
    ensures x in ListNumbers(args) <==> Names(args, x)
  {
    if x in ListNumbers(args) {
      ListNumbersSound(args, x);
    }
    if Names(args, x) {
      var k :| 0 <= k < |args| && ParseUsize(args[k]) == Some(x + 1);
      ListNumbersComplete(args, k);
    }
  }

  lemma {:induction false} ListNumbersSound(args: seq<string>, x: nat)
    requires x in ListNumbers(args)
    ensures exists k :: 0 <= k < |args| && ParseUsize(args[k]) == Some(x + 1)
  {
    if x in TokenId(args[0]) {
      assert ParseUsize(args[0]) == Some(x + 1);
    } else {
      ListNumbersSound(args[1..], x);
      var k :| 0 <= k < |args[1..]| && ParseUsize(args[1..][k]) == Some(x + 1);
      assert args[k + 1] == args[1..][k];
    }
  }

  lemma {:induction false} ListNumbersComplete(args: seq<string>, k: nat)
    requires k < |args| && ParseUsize(args[k]).Some? && ParseUsize(args[k]).value != 0
    ensures ParseUsize(args[k]).value - 1 in ListNumbers(args)
  {
    if k > 0 {
      assert args[1..][k - 1] == args[k];
      ListNumbersComplete(args[1..], k - 1);
    }
  }

  /**
   * `get_numbers`: the zero-based range first - 1 .. last - 1 when the
   * inspected token holds `first-last` (empty when first > last), and the
   * list-mode positions otherwise.
   */
  function GetNumbers(args: seq<string>): (r: seq<nat>)
    requires GetNumbersDefined(args)
    ensures RangeCapture(args).Some? ==>
              var x, y := ParseUsize(RangeCapture(args).value.first).value, ParseUsize(RangeCapture(args).value.last).value;
              |r| == (if x <= y then y - x + 1 else 0) &&
              forall i :: 0 <= i < |r| ==> r[i] == x - 1 + i
    ensures RangeCapture(args).None? ==> r == ListNumbers(args)
  {
    match RangeCapture(args)
    case Some(c) =>
      var x, y := ParseUsize(c.first).value, ParseUsize(c.last).value;
      if x > y then [] else Span(x - 1, y)
    case None => ListNumbers(args)
  }

  lemma DigitRunOfDigits(d: string, rest: string)
    requires AllDigits(d)
    requires |rest| == 0 || !IsDigit(rest[0])
    ensures DigitRun(d + rest) == |d|
  {
    var s := d + rest;
    assert s[..|d|] == d;
  }

  /** Two digit runs joined by '-' match whole, from the start. */
  lemma MatchAtOfDigits(x: string, y: string)
    requires |x| > 0 && AllDigits(x) && |y| > 0 && AllDigits(y)
    ensures MatchAt(x + "-" + y, 0) == Some(Captures(x, y))
  {
    var s := x + "-" + y;
    assert s[0..] == x + ("-" + y);
    DigitRunOfDigits(x, "-" + y);
    assert s[|x|] == '-';
    assert s[|x| + 1..] == y + "";
    DigitRunOfDigits(y, "");
    assert s[0..|x|] == x;
    assert s[|x| + 1..|x| + 1 + |y|] == y;
  }

  /** A typed range `A-B` is found whole, with A and B as its captures. */
  lemma FindRangeOfDecimals(a: nat, b: nat)
    ensures FindRange(Decimal(a) + "-" + Decimal(b)) == Some(Captures(Decimal(a), Decimal(b)))
  {
    MatchAtOfDigits(Decimal(a), Decimal(b));
  }

  /** A captured range `x-y` with 1 <= x <= y resolves to the positions x - 1 through y - 1. */
  lemma GetNumbersOfCapture(args: seq<string>, c: Captures, x: nat, y: nat)
    requires RangeCapture(args) == Some(c)
    requires ParseUsize(c.first) == Some(x) && ParseUsize(c.last) == Some(y) && 1 <= x <= y
    ensures GetNumbersDefined(args)
    ensures GetNumbers(args) == Span(x - 1, y)
  {
    var r := GetNumbers(args);
    assert |r| == |Span(x - 1, y)|;
    assert forall i :: 0 <= i < |r| ==> r[i] == Span(x - 1, y)[i];
  }

  /** `check 3-5` resolves to the zero-based positions 2, 3 and 4. */
  lemma GetNumbersOfRange(verb: string, a: nat, b: nat)
    requires 1 <= a <= b <= UsizeMax
    ensures GetNumbersDefined([verb, Decimal(a) + "-" + Decimal(b)])
    ensures GetNumbers([verb, Decimal(a) + "-" + Decimal(b)]) == Span(a - 1, b)
  {
    var tok := Decimal(a) + "-" + Decimal(b);
    var args := [verb, tok];
    FindRangeOfDecimals(a, b);
    assert Inspected(args) == Some(tok);
    var c := Captures(Decimal(a), Decimal(b));
    ParseDecimal(a);
    ParseDecimal(b);
    GetNumbersOfCapture(args, c, a, b);
  }

  /** No '-' in a token means no range inside it. */
  lemma NoDashNoRange(s: string)
    requires '-' !in s
    ensures FindRange(s).None?
  {
    assert forall q :: 0 <= q < |s| ==> MatchAt(s, q).None?;
  }

  /** `check 2 5` resolves to the zero-based positions 1 and 4, the verb being no number. */
  lemma GetNumbersOfDecimals(verb: string, ns: seq<nat>)
    requires |ns| >= 1 && ParseUsize(verb).None?
    requires forall i :: 0 <= i < |ns| ==> 1 <= ns[i] <= UsizeMax
    ensures GetNumbersDefined([verb] + Decimals(ns))
    ensures |GetNumbers([verb] + Decimals(ns))| == |ns|
    ensures forall i :: 0 <= i < |ns| ==> GetNumbers([verb] + Decimals(ns))[i] + 1 == ns[i]
  {
    var args := [verb] + Decimals(ns);
    DecimalsAt(ns);
    assert args[1] == Decimal(ns[0]);
    assert '-' !in Decimal(ns[0]) by {
      assert AllDigits(Decimal(ns[0]));
    }
    NoDashNoRange(args[1]);
    assert args[1..] == Decimals(ns);
    ListNumbersOfDecimals(ns);
  }

  lemma ListNumbersOfDecimals(ns: seq<nat>)
    requires forall i :: 0 <= i < |ns| ==> 1 <= ns[i] <= UsizeMax
    ensures |ListNumbers(Decimals(ns))| == |ns|
    ensures forall i :: 0 <= i < |ns| ==> ListNumbers(Decimals(ns))[i] + 1 == ns[i]
  {
    DecimalsAt(ns);
    forall i | 0 <= i < |ns|
      ensures ParseUsize(Decimals(ns)[i]) == Some(ns[i])
    {
      ParseDecimal(ns[i]);
    }
    ListNumbersOfNumbers(Decimals(ns), ns);
  }

  /** Tokens that are all nonzero numbers each give their position, in order. */
  lemma {:induction false} ListNumbersOfNumbers(args: seq<string>, ns: seq<nat>)
    requires |args| == |ns|
    requires forall i :: 0 <= i < |ns| ==> ns[i] >= 1 && ParseUsize(args[i]) == Some(ns[i])
    ensures |ListNumbers(args)| == |ns|
    ensures forall i :: 0 <= i < |ns| ==> ListNumbers(args)[i] + 1 == ns[i]
  {
    if |ns| > 0 {
      assert forall i :: 0 <= i < |ns| - 1 ==> args[1..][i] == args[i + 1];
      ListNumbersOfNumbers(args[1..], ns[1..]);
      var r := ListNumbers(args);
      assert r == [ns[0] - 1] + ListNumbers(args[1..]);
      forall i | 1 <= i < |ns|
        ensures r[i] + 1 == ns[i]
      {
        assert r[i] == ListNumbers(args[1..])[i - 1];
      }
    }
  }
}

=== FILE: sort.dfy ===
/**
 * Sort-on-load (`Config::sort_tasks`): the default board's items first,
 * then each custom board's items as one block, blocks in first-seen order,
 * every board keeping its own order; the store is rewritten only when the
 * result differs from the loaded ledger under item equality.
 */
module Sorting {
  import opened Entity
  import opened Boards

  /** The board order sort-on-load and the config report use: the default board, then the custom boards. */
  function BoardOrder(l: seq<Task>): seq<string> {
    [DefaultBoard] + Customs(l)
  }

  /** The order lists every board of the ledger exactly once. */
  lemma BoardOrderSpec(l: seq<Task>)
    ensures NoDup(BoardOrder(l))
    ensures forall i :: 0 <= i < |l| ==> l[i].boardName in BoardOrder(l)
    ensures forall b :: b in BoardOrder(l) && b != DefaultBoard ==> b in BoardNames(l)
  {
    CustomsSpec(l);
    BoardNamesAt(l);
    forall i | 0 <= i < |l|
      ensures l[i].boardName in BoardOrder(l)
    {
      assert BoardNames(l)[i] == l[i].boardName;
    }
  }

  /**
   * `sort_tasks`: the default board's items (the filter_map), then for each
   * custom board in first-seen order the items on that board.
   */
  function Sort(l: seq<Task>): seq<Task> {
    OnBoard(l, DefaultBoard) + Blocks(l, Customs(l))
  }

  lemma SortIsBlocks(l: seq<Task>)
    ensures Sort(l) == Blocks(l, BoardOrder(l))
  {
    assert BoardOrder(l)[1..] == Customs(l);
  }

  /** Sorting only reorders: same items, same number of each. */
  lemma SortPermutation(l: seq<Task>)
    ensures multiset(Sort(l)) == multiset(l)
    ensures |Sort(l)| == |l|
  {
    SortIsBlocks(l);
    BoardOrderSpec(l);
    BlocksPermutation(l, BoardOrder(l));
  }

  /** Every board keeps exactly its items, in their original relative order. */
  lemma SortStable(l: seq<Task>, b: string)
    ensures OnBoard(Sort(l), b) == OnBoard(l, b)
  {
    SortIsBlocks(l);
    BoardOrderSpec(l);
    OnBoardOfBlocks(l, BoardOrder(l), b);
    if b !in BoardOrder(l) {
      BoardNamesAt(l);
      OnBoardOfAbsent(l, b);
    }
  }

  /**
   * A ledger is grouped when its items already come in board order: all
   * default-board items first, then one board after another in the order
   * the boards are first seen.
   */
  predicate Grouped(l: seq<Task>) {
    RankOrdered(l, BoardOrder(l))
  }

  /** The sorted ledger is in board order. */
  lemma SortRankOrdered(l: seq<Task>)
    ensures RankOrdered(Sort(l), BoardOrder(l))
  {
    SortIsBlocks(l);
    BoardOrderSpec(l);
    BlocksRankOrdered(l, BoardOrder(l));
  }

  /** Sorting leaves a ledger unchanged exactly when it is already grouped. */
  lemma SortFixesExactlyGrouped(l: seq<Task>)
    ensures Sort(l) == l <==> Grouped(l)
  {
    SortRankOrdered(l);
    if Grouped(l) {
      BoardOrderSpec(l);
      BlocksOfOrdered(l, BoardOrder(l));
      SortIsBlocks(l);
    }
  }

  /** The board names of two ledgers one after the other. */
  lemma BoardNamesOfConcat(a: seq<Task>, b: seq<Task>)
    ensures BoardNames(a + b) == BoardNames(a) + BoardNames(b)
  {
    var ab := a + b;
    BoardNamesAt(a);
    BoardNamesAt(b);
    BoardNamesAt(ab);
    forall i | 0 <= i < |ab|
      ensures BoardNames(ab)[i] == (BoardNames(a) + BoardNames(b))[i]
    {
      if i < |a| {
        assert ab[i] == a[i];
      } else {
        assert ab[i] == b[i - |a|];
      }
    }
  }

  /** Names already seen contribute nothing to `unique`. */
  lemma {:induction false} UniqueSkipsSeen(p: seq<string>, r: seq<string>, seen: set<string>)
    requires forall i :: 0 <= i < |p| ==> p[i] in seen
    ensures Unique(p + r, seen) == Unique(r, seen)
  {
    if |p| > 0 {
      assert (p + r)[1..] == p[1..] + r;
      UniqueSkipsSeen(p[1..], r, seen);
    } else {
      assert p + r == r;
    }
  }

  lemma {:induction false} BoardNamesOfRun(l: seq<Task>, b: string)
    ensures forall i :: 0 <= i < |BoardNames(OnBoard(l, b))| ==> BoardNames(OnBoard(l, b))[i] == b
  {
    OnBoardAll(l, b);
    BoardNamesAt(OnBoard(l, b));
  }

  /**
   * The first-seen board list of a regrouped ledger is the order it was
   * regrouped by, when every board of that order is in use.
   */
  lemma {:induction false} UniqueOfBlocks(l: seq<Task>, order: seq<string>, seen: set<string>)
    requires NoDup(order)
    requires forall b :: b in order ==> b in BoardNames(l) && b !in seen
    ensures Unique(BoardNames(Blocks(l, order)), seen) == order
  {
    if |order| > 0 {
      var b, rest := order[0], order[1..];
      var run := BoardNames(OnBoard(l, b));
      var after := BoardNames(Blocks(l, rest));
      BoardNamesOfConcat(OnBoard(l, b), Blocks(l, rest));
      OnBoardOfPresent(l, b);
      BoardNamesOfRun(l, b);
      UniqueOfRun(run, after, seen, b);
      assert order == [b] + rest;
      UniqueOfBlocks(l, rest, seen + {b});
    }
  }

  /** A run of one unseen name contributes that name once. */
  lemma UniqueOfRun(run: seq<string>, after: seq<string>, seen: set<string>, b: string)
    requires |run| > 0 && b !in seen
    requires forall i :: 0 <= i < |run| ==> run[i] == b
    ensures Unique(run + after, seen) == [b] + Unique(after, seen + {b})
  {
    var s := run + after;
    assert s[0] == b;
    assert s[1..] == run[1..] + after;
    forall i | 0 <= i < |run[1..]|
      ensures run[1..][i] in seen + {b}
    {
      assert run[1..][i] == run[i + 1];
    }
    UniqueSkipsSeen(run[1..], after, seen + {b});
  }

  /** Sorting keeps the custom boards and their first-seen order. */
  lemma SortKeepsCustoms(l: seq<Task>)
    ensures Customs(Sort(l)) == Customs(l)
  {
    var c := Customs(l);
    BoardOrderSpec(l);
    CustomsSpec(l);
    if DefaultBoard in BoardNames(l) {
      SortIsBlocks(l);
      UniqueOfBlocks(l, BoardOrder(l), {});
      assert Erase(BoardOrder(l), DefaultBoard) == Erase(c, DefaultBoard);
    } else {
      OnBoardOfAbsent(l, DefaultBoard);
      assert Sort(l) == Blocks(l, c);
      UniqueOfBlocks(l, c, {});
    }
    EraseAbsent(c, DefaultBoard);
  }

  /** Sorting twice gives the same ledger as sorting once. */
  lemma SortIdempotent(l: seq<Task>)
    ensures Sort(Sort(l)) == Sort(l)
  {
    SortKeepsCustoms(l);
    SortIsBlocks(l);
    SortIsBlocks(Sort(l));
    BoardOrderSpec(l);
    BlocksOfBlocks(l, BoardOrder(l), BoardOrder(l));
  }

  /** What sort-on-load does: the regrouped ledger, and whether the store would be rewritten. */
  datatype Resorted = Resorted(ledger: seq<Task>, write: bool)

  /**
   * `sort_tasks`: regroup, then rewrite only when the regrouped ledger is
   * not equal to the loaded one under item equality.
   */
  function SortTasks(l: seq<Task>): (r: Resorted)
    ensures |r.ledger| == |l|
    ensures Grouped(l) ==> r.ledger == l && !r.write
    ensures r.write ==> r.ledger != l
    ensures r.ledger == Sort(l) && multiset(r.ledger) == multiset(l)
    ensures r.write <==> Items(r.ledger) != Items(l)
    ensures Grouped(r.ledger)
  {
    SortPermutation(l);
    SortFixesExactlyGrouped(l);
    SortIdempotent(l);
    SortFixesExactlyGrouped(Sort(l));
    SameItemsIffItems(Sort(l), l);
    var sorted := Sort(l);
    Resorted(sorted, !SameItems(sorted, l))
  }

  /**
   * Item equality can hide a real reordering: a custom-board "x" listed
   * before a default-board "x" is moved behind it, yet the two ledgers
   * compare equal and nothing is rewritten.
   */
  lemma SameTextsHideReorder(x: string, board: string, d1: Timestamp, d2: Timestamp)
    requires board != DefaultBoard
    ensures var l := [Task(x, false, board, false, d1), Task(x, false, DefaultBoard, false, d2)];
            SortTasks(l).ledger == [l[1], l[0]] && SortTasks(l).ledger != l && !SortTasks(l).write
  {
    var w := Task(x, false, board, false, d1);
    var t := Task(x, false, DefaultBoard, false, d2);
    var l := [w, t];
    assert BoardNames(l) == [board, DefaultBoard];
    assert [board, DefaultBoard][1..] == [DefaultBoard];
    assert [DefaultBoard][1..] == [];
    assert Unique([DefaultBoard], {board}) == [DefaultBoard];
    var none: set<string> := {};
    assert none + {board} == {board};
    assert Unique([board, DefaultBoard], none) == [board] + Unique([DefaultBoard], {board});
    assert Distinct(BoardNames(l)) == [board, DefaultBoard];
    assert Customs(l) == [board] by {
      assert [board, DefaultBoard][1..] == [DefaultBoard];
      assert Erase([DefaultBoard], DefaultBoard) == [];
    }
    assert l[1..] == [t] && [t][1..] == [];
    assert OnBoard(l, DefaultBoard) == [t];
    assert OnBoard(l, board) == [w];
    assert Blocks(l, [board]) == [w];
    assert Sort(l) == [t, w];
    assert Sort(l) != l by {
      assert Sort(l)[0].boardName != l[0].boardName;
    }
  }
}

=== FILE: tasks.dfy ===
/**
 * The free-function lineage (`src/tasks.rs`): toggle, add, note, delete,
 * clear and the board report, each over the ledger loaded from the active
 * store, with what it leaves in the store as the result.
 */
module Tasks {
  import opened Maybe
  import opened Text
  import opened Entity
  import opened Partition
  import opened Positions
  import opened Boards
  import opened Resolve

  /** The one-based ids the toggle loop visits: first through last in range mode, the list as given otherwise. */
  function Visited(numbers: seq<nat>, range: bool): seq<nat>
    requires range ==> |numbers| > 0
  {
    if range then Span(numbers[0], numbers[|numbers| - 1] + 1) else numbers
  }

  /** The toggle loop never subtracts from 0: every id it reaches before an abort is at least 1. */
  predicate ToggleDefined(ids: seq<nat>, len: nat) {
    |ids| == 0 || ids[0] > len || (ids[0] >= 1 && ToggleDefined(ids[1..], len))
  }

  /**
   * The toggle loop: each one-based id flips its item, and the first id
   * past the end stops the run with nothing kept.
   */
  function Toggle(l: seq<Task>, ids: seq<nat>): (r: Option<seq<Task>>)
    requires ToggleDefined(ids, |l|)
    ensures r.None? <==> exists k :: 0 <= k < |ids| && ids[k] > |l|
    ensures r.Some? ==> FlippedBy(l, r.value, multiset(ids), 1)
    decreases |ids|
  {
    if |ids| == 0 then Some(l)
    else if ids[0] > |l| then None
    else
      var r := Toggle(Flip(l, ids[0] - 1), ids[1..]);
      ToggleStep(l, ids, r);
      r
  }

  /** One step of the loop: flipping the first id and then the rest is flipping them all. */
  lemma ToggleStep(l: seq<Task>, ids: seq<nat>, r: Option<seq<Task>>)
    requires |ids| > 0 && 1 <= ids[0] <= |l|
    requires r.None? <==> exists k :: 0 <= k < |ids[1..]| && ids[1..][k] > |l|
    requires r.Some? ==> FlippedBy(Flip(l, ids[0] - 1), r.value, multiset(ids[1..]), 1)
    ensures r.None? <==> exists k :: 0 <= k < |ids| && ids[k] > |l|
    ensures r.Some? ==> FlippedBy(l, r.value, multiset(ids), 1)
  {
    assert forall k :: 1 <= k < |ids| ==> ids[k] == ids[1..][k - 1];
    if r.Some? {
      FlipThen(l, ids[0], ids[1..], r.value, 1);
      assert ids == [ids[0]] + ids[1..];
    }
  }

  /**
   * `check_task`: flip the checked flag of every addressed item, once per
   * occurrence of its one-based id, or abort with nothing written as soon
   * as an id lies past the end.
   */
  function CheckTask(l: seq<Task>, numbers: seq<nat>, range: bool): (r: Outcome)
    requires range ==> |numbers| > 0
    requires ToggleDefined(Visited(numbers, range), |l|)
    ensures !r.Emptied?
    ensures r.Aborted? <==> exists k :: 0 <= k < |Visited(numbers, range)| && Visited(numbers, range)[k] > |l|
    ensures range && numbers[0] <= numbers[|numbers| - 1] ==> (r.Aborted? <==> numbers[|numbers| - 1] > |l|)
    ensures r.Updated? ==> FlippedBy(l, r.ledger, multiset(Visited(numbers, range)), 1)
  {
    var ids := Visited(numbers, range);
    assert range && numbers[0] <= numbers[|numbers| - 1] ==> ids[|ids| - 1] == numbers[|numbers| - 1];
    match Toggle(l, ids)
    case None => Aborted
    case Some(m) => Updated(m)
  }

  /** Checking the same ids twice gives the original ledger back. */
  lemma CheckTwiceRestores(l: seq<Task>, numbers: seq<nat>, range: bool)
    requires range ==> |numbers| > 0
    requires ToggleDefined(Visited(numbers, range), |l|)
    ensures CheckTask(l, numbers, range).Updated? ==>
              var m := CheckTask(l, numbers, range).ledger;
              ToggleDefined(Visited(numbers, range), |m|) && CheckTask(m, numbers, range) == Updated(l)
  {
    var r := CheckTask(l, numbers, range);
    if r.Updated? {
      var m := r.ledger;
      var again := CheckTask(m, numbers, range);
      assert again.Updated?;
      FlipTwiceRestores(l, m, again.ledger, multiset(Visited(numbers, range)), 1);
    }
  }

  /** The tokens after the command word: the arguments minus a leading `verb`. */
  function Operands(args: seq<string>, verb: string): (r: seq<string>)
    requires |args| >= 1
    ensures r == args || (args[0] == verb && r == args[1..])
  {
    if args[0] == verb then args[1..] else args
  }

  /**
   * `add_task`: append one unchecked task built from the operand tokens;
   * a '!' in the first operand makes it the board name (minus every '!').
   */
  function AddTask(l: seq<Task>, args: seq<string>, date: Timestamp): (r: Outcome)
    requires |args| >= 1 && |Operands(args, "a")| >= 1
    ensures r.Updated? && |r.ledger| == |l| + 1 && r.ledger[..|l|] == l
    ensures var t, ops := r.ledger[|l|], Operands(args, "a");
            && !t.checked && !t.note && t.date == date
            && ('!' in ops[0] ==> t.boardName == RemoveBangs(ops[0]) && t.item == Join(ops[1..]))
            && ('!' !in ops[0] ==> t.boardName == DefaultBoard && t.item == Join(ops))
  {
    var r := l + [NewTask(Operands(args, "a"), date)];
    assert r[..|l|] == l;
    Updated(r)
  }

  /** `a !Work buy milk` appends "buy milk" to board "Work". */
  lemma AddTaskRoundTrip(l: seq<Task>, b: string, words: seq<string>, date: Timestamp)
    requires '!' !in b && |words| >= 1 && NoSpace(words)
    ensures var t := AddTask(l, ["a", "!" + b] + words, date).ledger[|l|];
            t.boardName == b && Split(t.item) == words
  {
    var args := ["a", "!" + b] + words;
    assert Operands(args, "a") == ["!" + b] + words;
    MarkedTaskRoundTrip(b, words, date);
  }

  /** `add_note`: append one unchecked note on the default board holding every token after the command. */
  function AddNote(l: seq<Task>, args: seq<string>, date: Timestamp): (r: Outcome)
    requires |args| >= 1
    ensures r.Updated? && |r.ledger| == |l| + 1 && r.ledger[..|l|] == l
    ensures var t := r.ledger[|l|];
            t.note && !t.checked && t.boardName == DefaultBoard && t.date == date && t.item == Join(args[1..])
  {
    var r := l + [NewNote(args[1..], date)];
    assert r[..|l|] == l;
    Updated(r)
  }

  /** A note keeps the words it was given after the command word. */
  lemma AddNoteRoundTrip(l: seq<Task>, verb: string, words: seq<string>, date: Timestamp)
    requires |words| >= 1 && NoSpace(words)
    ensures Split(AddNote(l, [verb] + words, date).ledger[|l|].item) == words
  {
    assert ([verb] + words)[1..] == words;
    NoteRoundTrip(words, date);
  }

  /**
   * `delete_task`: resolve the operands with `get_id`, then run the
   * compaction loop. A token that is not a number, or an id past the end,
   * aborts with nothing written; a ledger left empty truncates the store.
   * For strictly ascending ids inside the ledger, exactly those positions
   * go and the other items keep their order.
   */
  method DeleteTask(l: seq<Task>, args: seq<string>) returns (r: Outcome)
    requires |args| >= 1
    requires GetIdDefined(Operands(args, "d"))
    requires GetId(Operands(args, "d")).Ids? ==> CompactDefined(GetId(Operands(args, "d")).ids, |l|, 0)
    ensures GetId(Operands(args, "d")).NotANumber? ==> r.Aborted?
    ensures GetId(Operands(args, "d")).Ids? ==>
              var ids := GetId(Operands(args, "d")).ids;
              && (r.Aborted? <==> exists k :: 0 <= k < |ids| && ids[k] >= |l| && ids[k] != 0)
              && (!r.Aborted? ==> |Stored(r, l)| + Hits(ids, |l|) == |l|)
              && (!r.Aborted? ==> Stored(r, l) == Compact(l, ids, |l|, 0).value)
              && (StrictlyAscending(ids) && Below(ids, |l|) ==> Stored(r, l) == Survivors(l, IdSet(ids)))
    ensures r.Updated? ==> |r.ledger| > 0
  {
    var res := GetId(Operands(args, "d"));
    if res.NotANumber? {
      return Aborted;
    }
    var kept := DeleteLoop(l, res.ids);
    if kept.None? {
      return Aborted;
    }
    if |kept.value| == 0 {
      return Emptied;
    }
    return Updated(kept.value);
  }

  /** What `clear_tasks` does: nothing at all on an empty ledger, otherwise the store's new state and the archived items. */
  datatype Clearing = Untouched | Cleared(store: Outcome, archived: seq<Task>)

  /**
   * `clear_tasks`: move every checked item to the archive, walking the
   * original positions and shifting each down by the removals made so far.
   * Both parts keep ledger order; an empty remainder truncates the store.
   */
  method ClearTasks(l: seq<Task>) returns (r: Clearing)
    ensures r.Untouched? <==> |l| == 0
    ensures r.Cleared? ==> r.archived == Completed(l) && Stored(r.store, l) == Pending(l)
    ensures r.Cleared? ==> !r.store.Aborted? && (r.store.Emptied? <==> Pending(l) == [])
    ensures r.Cleared? ==> |r.archived| + |Stored(r.store, l)| == |l|
  {
    if |l| == 0 {
      return Untouched;
    }
    var data := l;
    var archive: seq<Task> := [];
    var removed := 0;
    for i := 0 to |l|
      invariant removed == |archive| && |Pending(l[..i])| + removed == i
      invariant data == Pending(l[..i]) + l[i..]
      invariant archive == Completed(l[..i])
    {
      ClearStep(l, i);
      var at := i - removed;
      if data[at].checked {
        archive := archive + [data[at]];
        data := RemoveAt(data, at);
        removed := removed + 1;
      }
    }
    assert l[..|l|] == l;
    PartitionCovers(l);
    if |data| == 0 {
      return Cleared(Emptied, archive);
    }
    return Cleared(Updated(data), archive);
  }

  /**
   * One turn of the clearing loop: with the kept items in front of the
   * unvisited l[i..], the item at the shifted index is l[i]; a checked one
   * moves to the archive and is removed there, an unchecked one stays.
   */
  lemma ClearStep(l: seq<Task>, i: nat)
    requires i < |l|
    ensures var p := Pending(l[..i]); var d := p + l[i..];
            && |p| < |d| && d[|p|] == l[i]
            && (l[i].checked ==>
                  && Completed(l[..i + 1]) == Completed(l[..i]) + [l[i]]
                  && Pending(l[..i + 1]) == p
                  && RemoveAt(d, |p|) == Pending(l[..i + 1]) + l[i + 1..])
            && (!l[i].checked ==>
                  && Completed(l[..i + 1]) == Completed(l[..i])
                  && Pending(l[..i + 1]) == p + [l[i]]
                  && d == Pending(l[..i + 1]) + l[i + 1..])
  {
    PartitionStep(l, i);
    var p := Pending(l[..i]);
    assert l[i..] == [l[i]] + l[i + 1..];
    assert p + l[i..] == (p + [l[i]]) + l[i + 1..];
    if l[i].checked {
      assert Completed(l[..i]) + [] == Completed(l[..i]) && p + [] == p;
      assert RemoveAt(p + l[i..], |p|) == p + l[i + 1..];
    } else {
      assert Completed(l[..i]) + [] == Completed(l[..i]);
    }
  }

  /** The items in the order the report numbers them: each custom board in first-seen order, then the default board. */
  function Listing(l: seq<Task>): seq<Task> {
    Blocks(l, Customs(l) + [DefaultBoard])
  }

  /** The report lists every item exactly once and each board's items in ledger order. */
  lemma ListingPermutation(l: seq<Task>, b: string)
    ensures multiset(Listing(l)) == multiset(l) && |Listing(l)| == |l|
    ensures OnBoard(Listing(l), b) == OnBoard(l, b)
  {
    var order := Customs(l) + [DefaultBoard];
    CustomsSpec(l);
    BoardNamesAt(l);
    assert NoDup(order) by {
      forall i, j | 0 <= i < j < |order|
        ensures order[i] != order[j]
      {
        if j == |order| - 1 {
          assert order[i] in Customs(l);
        } else {
          assert order[i] == Customs(l)[i] && order[j] == Customs(l)[j];
        }
      }
    }
    forall i | 0 <= i < |l|
      ensures l[i].boardName in order
    {
      assert BoardNames(l)[i] == l[i].boardName;
      if l[i].boardName != DefaultBoard {
        assert l[i].boardName in Customs(l);
      }
    }
    BlocksPermutation(l, order);
    OnBoardOfBlocks(l, order, b);
    if b !in order {
      OnBoardOfAbsent(l, b);
    }
  }

  /**
   * `tasks()`: nothing but the help text on an empty ledger; otherwise the
   * per-board figures over the distinct boards, headers for the custom
   * boards and then the default board, the numbered listing, and a footer
   * counting checked non-notes, non-notes, and notes.
   */
  method Report(l: seq<Task>) returns (r: Option<Summary>)
    requires |l| > 0 ==> DefaultBoard in BoardNames(l)
    ensures r.None? <==> |l| == 0
    ensures r.Some? ==>
              var s, names := r.value, Distinct(BoardNames(l));
              && |s.counts| == |names|
              && (forall k :: 0 <= k < |names| ==>
                    s.counts[k] == BoardCount(names[k], |Completed(OnBoard(l, names[k]))|, |OnBoard(l, names[k])|))
              && TotalOf(s.counts) == |l|
              && s.headers == Customs(l) + [DefaultBoard]
              && s.listing == Listing(l) && multiset(s.listing) == multiset(l)
              && s.completed == DoneTasks(l) && s.completed <= |Completed(l)|
              && s.notes == |Notes(l)| && s.open + s.notes == |l|
  {
    if |l| == 0 {
      return None;
    }
    var completed := CountDone(l);
    var names := Distinct(BoardNames(l));
    var counts := CountBoards(l, names);
    TotalsCoverLedger(l, counts);
    var listing := Listing(l);
    ListingPermutation(l, DefaultBoard);
    var notes := CountNotes(listing);
    NotesOfPermutation(listing, l);
    DoneTasksWithoutNotes(l);
    return Some(Summary(counts, Customs(l) + [DefaultBoard], listing, completed, |l| - notes, notes));
  }

  /**
   * The report numbers custom boards first, yet `check n` addresses ledger
   * position n - 1: with a default-board "x" stored before a custom-board
   * "y", "y" is shown as item 1 while `check 1` flips "x".
   */
  lemma NumberingMismatch(x: string, y: string, board: string, d1: Timestamp, d2: Timestamp)
    requires board != DefaultBoard
    ensures var t, w := Task(x, false, DefaultBoard, false, d1), Task(y, false, board, false, d2);
            && Listing([t, w]) == [w, t]
            && ToggleDefined(Visited([1], false), 2)
            && CheckTask([t, w], [1], false) == Updated([t.(checked := true), w])
  {
    var t, w := Task(x, false, DefaultBoard, false, d1), Task(y, false, board, false, d2);
    var l := [t, w];
    assert BoardNames(l) == [DefaultBoard, board];
    assert [DefaultBoard, board][1..] == [board];
    assert [board][1..] == [];
    var none: set<string> := {};
    assert none + {DefaultBoard} == {DefaultBoard};
    assert Unique([board], {DefaultBoard}) == [board] + Unique([], {DefaultBoard} + {board});
    assert Distinct(BoardNames(l)) == [DefaultBoard, board];
    assert Customs(l) == [board] by {
      assert Erase([board], DefaultBoard) == [board] + Erase([], DefaultBoard);
    }
    assert l[1..] == [w] && [w][1..] == [];
    assert OnBoard(l, board) == [w];
    assert OnBoard(l, DefaultBoard) == [t];
    assert ([board] + [DefaultBoard])[1..] == [DefaultBoard];
    assert Blocks(l, [DefaultBoard]) == [t] + Blocks(l, []);
    assert Listing(l) == [w, t];
    assert [1][1..] == [];
    assert Toggle(l, [1]) == Toggle(Flip(l, 0), []);
    assert Flip(l, 0) == [t.(checked := true), w];
  }
}

=== FILE: text.dfy ===
/** An optional value, for parsers that can fail. */
module Maybe {
  datatype Option<+T> = None | Some(value: T)
}

/**
 * Text handling the ledger commands rely on: Rust's `str::parse::<usize>`,
 * the decimal form a position is printed in, joining argument tokens with a
 * single space, and stripping every '!' from a board marker.
 */
module Text {
  import opened Maybe

  /** Largest `usize` on the 64-bit targets the tool is built for. */
  const UsizeMax: nat := 0xFFFF_FFFF_FFFF_FFFF

  predicate IsDigit(c: char) {
    '0' <= c <= '9'
  }

  predicate AllDigits(s: string) {
    forall i :: 0 <= i < |s| ==> IsDigit(s[i])
  }

  function DigitValue(c: char): nat
    requires IsDigit(c)
  {
    c as int - '0' as int
  }

  /** Value of a run of decimal digits, most significant digit first. */
  function Value(s: string): nat
    requires AllDigits(s)
  {
    if |s| == 0 then 0 else 10 * Value(s[..|s| - 1]) + DigitValue(s[|s| - 1])
  }

  /**
   * `usize::from_str`: an optional leading '+', then at least one ASCII
   * digit and nothing else, with a value that fits in a usize. A '-' sign,
   * an empty string and a lone '+' are all rejected.
   */
  function ParseUsize(s: string): (r: Option<nat>)
    ensures r.Some? <==> |Unsigned(s)| > 0 && AllDigits(Unsigned(s)) && Value(Unsigned(s)) <= UsizeMax
    ensures r.Some? ==> r.value == Value(Unsigned(s)) && r.value <= UsizeMax
    ensures r.Some? ==> |s| > 0 && (IsDigit(s[0]) || s[0] == '+')
    ensures r.Some? ==> '-' !in s && ' ' !in s
  {
    var digits := Unsigned(s);
    if |digits| == 0 || !AllDigits(digits) || Value(digits) > UsizeMax then None
    else Some(Value(digits))
  }

  /** What follows an optional leading '+'. */
  function Unsigned(s: string): string {
    if |s| > 0 && s[0] == '+' then s[1..] else s
  }

  predicate Zeros(z: string) {
    forall i :: 0 <= i < |z| ==> z[i] == '0'
  }

  function DigitChar(d: nat): (c: char)
    requires d < 10
    ensures IsDigit(c) && DigitValue(c) == d
  {
    ('0' as int + d) as char
  }

  /** Decimal form of n, the way a position is shown to and typed by the user. */
  function Decimal(n: nat): (r: string)
    ensures |r| > 0 && AllDigits(r)
  {
    if n < 10 then [DigitChar(n)] else Decimal(n / 10) + [DigitChar(n % 10)]
  }

  lemma {:induction false} ValueOfDecimal(n: nat)
    ensures Value(Decimal(n)) == n
  {
    if n >= 10 {
      var s := Decimal(n);
      assert s[..|s| - 1] == Decimal(n / 10);
      ValueOfDecimal(n / 10);
    }
  }

  /** Parsing is the inverse of printing for every number a usize can hold. */
  lemma ParseDecimal(n: nat)
    requires n <= UsizeMax
    ensures ParseUsize(Decimal(n)) == Some(n)
  {
    ValueOfDecimal(n);
  }

  /** Every digit string is the decimal form of its value behind some leading zeros. */
  lemma {:induction false} DigitsAreDecimal(d: string)
    requires |d| > 0 && AllDigits(d)
    ensures |Decimal(Value(d))| <= |d|
    ensures d[|d| - |Decimal(Value(d))|..] == Decimal(Value(d))
    ensures Zeros(d[..|d| - |Decimal(Value(d))|])
    decreases |d|
  {
    var init, c := d[..|d| - 1], d[|d| - 1];
    var v := DigitValue(c);
    assert DigitChar(v) == c;
    assert d == init + [c];
    if |d| == 1 {
      assert Value(d) == v;
    } else {
      DigitsAreDecimal(init);
      var m := Value(init);
      assert Value(d) == 10 * m + v;
      if m == 0 {
        assert Decimal(0) == ['0'];
        assert init[|init| - 1..] == ['0'];
        assert forall i :: 0 <= i < |init| - 1 ==> init[i] == init[..|init| - 1][i];
        assert Decimal(Value(d)) == [c];
        assert d[..|d| - 1] == init;
      } else {
        var n := |Decimal(m)|;
        assert Value(d) / 10 == m && Value(d) % 10 == v;
        assert Decimal(Value(d)) == Decimal(m) + [c];
        assert d[|d| - (n + 1)..] == init[|init| - n..] + [c];
        assert d[..|d| - (n + 1)] == init[..|init| - n];
      }
    }
  }

  /** A run of zeros is worth 0. */
  lemma {:induction false} ValueOfZeros(z: string)
    requires Zeros(z)
    ensures AllDigits(z) && Value(z) == 0
    decreases |z|
  {
    if |z| > 0 {
      ValueOfZeros(z[..|z| - 1]);
    }
  }

  /** Leading zeros do not change a value. */
  lemma {:induction false} ValueOfPadded(z: string, d: string)
    requires Zeros(z) && AllDigits(d)
    ensures AllDigits(z + d) && Value(z + d) == Value(d)
    decreases |d|
  {
    ValueOfZeros(z);
    if |d| > 0 {
      ValueOfPadded(z, d[..|d| - 1]);
      assert (z + d)[..|z + d| - 1] == z + d[..|d| - 1];
    } else {
      assert z + d == z;
    }
  }

  /**
   * An accepted token is the decimal form of its value, behind some zeros
   * and at most one leading '+'.
   */
  lemma ParsedIsPaddedDecimal(s: string, v: nat)
    requires ParseUsize(s) == Some(v)
    ensures |Decimal(v)| <= |s| && s[|s| - |Decimal(v)|..] == Decimal(v)
    ensures forall i :: 0 <= i < |s| - |Decimal(v)| ==> s[i] == '0' || (i == 0 && s[i] == '+')
  {
    var d := Unsigned(s);
    DigitsAreDecimal(d);
    var n := |Decimal(v)|;
    if s[0] == '+' {
      assert s[|s| - n..] == d[|d| - n..];
      assert forall i :: 1 <= i < |s| - n ==> s[i] == d[..|d| - n][i - 1];
    } else {
      assert forall i :: 0 <= i < |s| - n ==> s[i] == d[..|d| - n][i];
    }
  }

  /** Conversely, every such token is accepted with that value. */
  lemma PaddedDecimalParses(sign: string, z: string, n: nat)
    requires sign == "" || sign == "+"
    requires Zeros(z) && n <= UsizeMax
    ensures ParseUsize(sign + z + Decimal(n)) == Some(n)
  {
    var t := z + Decimal(n);
    ValueOfDecimal(n);
    ValueOfPadded(z, Decimal(n));
    assert sign + z + Decimal(n) == sign + t;
    assert Unsigned(sign + t) == t by {
      if sign == "+" {
        assert (sign + t)[1..] == t;
      } else {
        assert sign + t == t;
      }
    }
    AcceptsUnsigned(sign + t, t);
  }

  /** Whatever follows the optional sign decides the parse on its own. */
  lemma AcceptsUnsigned(s: string, t: string)
    requires Unsigned(s) == t && |t| > 0 && AllDigits(t) && Value(t) <= UsizeMax
    ensures ParseUsize(s) == Some(Value(t))
  {
  }

  /** `tokens.join(" ")`. */
  function Join(tokens: seq<string>): string
  {
    if |tokens| == 0 then ""
    else if |tokens| == 1 then tokens[0]
    else tokens[0] + " " + Join(tokens[1..])
  }

  predicate NoSpace(tokens: seq<string>) {
    forall i :: 0 <= i < |tokens| ==> ' ' !in tokens[i]
  }

  function FirstSpace(s: string): (i: nat)
    requires ' ' in s
    ensures i < |s| && s[i] == ' ' && ' ' !in s[..i]
  {
    if s[0] == ' ' then 0
    else
      assert ' ' in s[1..] by { assert s == [s[0]] + s[1..]; }
      var j := FirstSpace(s[1..]);
      assert s[..j + 1] == [s[0]] + s[1..][..j];
      j + 1
  }

  /** Splitting at every single space: the inverse of `Join` on space-free tokens. */
  function Split(s: string): (r: seq<string>)
    ensures |r| >= 1 && NoSpace(r)
    decreases |s|
  {
    if ' ' !in s then [s]
    else
      var i := FirstSpace(s);
      [s[..i]] + Split(s[i + 1..])
  }

  /** Joining space-free tokens loses nothing: splitting gives them back. */
  lemma {:induction false} SplitJoin(tokens: seq<string>)
    requires |tokens| >= 1 && NoSpace(tokens)
    ensures Split(Join(tokens)) == tokens
  {
    if |tokens| > 1 {
      SplitStep(tokens[0], Join(tokens[1..]));
      SplitJoin(tokens[1..]);
      assert tokens == [tokens[0]] + tokens[1..];
    }
  }

  /** Splitting stops at the first space, which ends a space-free head. */
  lemma SplitStep(head: string, rest: string)
    requires ' ' !in head
    ensures Split(head + " " + rest) == [head] + Split(rest)
  {
    var s := head + " " + rest;
    assert s[|head|] == ' ';
    assert s[..|head|] == head;
    var i := FirstSpace(s);
    assert i == |head| by {
      assert forall k :: 0 <= k < |head| ==> s[k] == head[k];
      assert forall k :: 0 <= k < i ==> s[..i][k] == s[k];
    }
    assert s[i + 1..] == rest;
  }

  /** `s.replace('!', "")`: the board name a `!board` marker stands for. */
  function RemoveBangs(s: string): (r: string)
    ensures '!' !in r
    ensures |r| <= |s|
    ensures '!' !in s ==> r == s
    ensures forall c :: c != '!' ==> multiset(r)[c] == multiset(s)[c]
  {
    if |s| == 0 then ""
    else
      assert s == [s[0]] + s[1..];
      (if s[0] == '!' then "" else [s[0]]) + RemoveBangs(s[1..])
  }

  /** Stripping distributes over concatenation, so it keeps the order of what it keeps. */
  lemma {:induction false} RemoveBangsOfConcat(a: string, b: string)
    ensures RemoveBangs(a + b) == RemoveBangs(a) + RemoveBangs(b)
    decreases |a|
  {
    if |a| == 0 {
      assert a + b == b;
    } else {
      assert (a + b)[0] == a[0];
      assert (a + b)[1..] == a[1..] + b;
      RemoveBangsOfConcat(a[1..], b);
      var h: string := if a[0] == '!' then "" else [a[0]];
      assert h + (RemoveBangs(a[1..]) + RemoveBangs(b)) == (h + RemoveBangs(a[1..])) + RemoveBangs(b);
    }
  }

  /** One character: a '!' goes, anything else stays. */
  lemma RemoveBangsOfChar(c: char)
    ensures c == '!' ==> RemoveBangs([c]) == ""
    ensures c != '!' ==> RemoveBangs([c]) == [c]
  {
    assert [c][1..] == "";
  }

  /** Stripping the marker is idempotent, and a marker `!b` names exactly b. */
  lemma MarkerNamesBoard(b: string)
    requires '!' !in b
    ensures RemoveBangs("!" + b) == b
    ensures RemoveBangs(RemoveBangs("!" + b)) == b
  {
    assert ("!" + b)[1..] == b;
  }
}
